=== FILE: README.md ===
# Betting-game rooms, modelled in Dafny

`app.js` runs a multi-room betting game. A room is created empty. Players
join it while it is `waiting`; any member may start it. Each round, every
seated player bets part of their money, and the highest bet wins the round.
A game ends when someone has won three rounds or when five rounds have
been played. The room is then deleted a minute later.

This project models that room and round state machine as pure functions
over immutable data:

- `ledger.dfy` (`Ledgers`): plain JavaScript objects keyed by uuid strings.
  Such objects enumerate their keys in insertion order (section 10.1.11 of
  ECMA-262, OrdinaryOwnPropertyKeys). They are modelled as association lists
  with unique keys: assignment overwrites in place or appends, and `delete`
  cuts the entry out.
- `room.dfy` (`Rooms`): players, round records, the four phases, the room
  record with its constants (100 starting money, 5 rounds, 3 to win), and
  the invariant `Valid`.
- `events.dfy` (`Events`): what a handler emits, to whom, and which timers
  it arms, all as data. It also holds the TypeErrors a handler can raise.
- `resolver.dfy` (`RoundResolver`): the two scans.
  - The bet scan of `endRound` finds the highest bet and the ids tied on it.
  - The roster scan of `endGame` finds the first strict leader in round
    wins.
  - Each scan is proved equal to an independent reference definition.
- `lifecycle.dfy` (`Lifecycle`): `endRound`, `startNextRound` and `endGame`.
- `coordinator.dfy` (`Coordinator`): the room registry and the per-socket
  `roomId`/`playerId` fields.
  - It holds room creation and the `joinRoom`, `startGame`, `placeBet` and
    `disconnect` handlers.
  - The two `setTimeout` callbacks are actions the environment may fire at
    any moment, for any room id.
  - `Step` runs one action. `Run` runs a sequence of actions, stopping at
    the first TypeError.
- `properties.dfy` (`Properties`): invariants over any action and any run.
  - Balances stay between 0 and 100, bets stay positive, and no key repeats.
  - How a room's phase and history may move in one action.
  - While a room is in `roundEnd` or `gameEnd`, no bet and no disconnect
    resolves it again. A `startGame` can reopen it, though. When the ledger
    then has as many entries as the roster, the next bet by a player who
    already has a ledger entry credits the round a second time.
  - Which situations make a handler throw.
- `scenarios.dfy` (`Scenarios`): concrete games followed action by action.
  - A tie that goes to the earlier bet.
  - A disconnect that crashes the round.

### Quirks of the code

The model keeps each of these behaviours of `app.js`:

- `disconnect` deletes the player's roster entry but not their bet
  (app.js:171). As a result, bet keys need not be roster keys. `endRound`
  can pick a winner with no roster entry, and it then raises a TypeError at
  app.js:216. `Properties.FaultNeedsOrphanBet` characterises when this
  happens, and `Scenarios.LeaverTakesTheRoundDown` is a concrete instance.
- `startGame` does not check that the room is `waiting` (app.js:96-110). A
  second `startGame` in the middle of a game resets the round counter to 1
  and reopens betting. The bets, balances and history are kept. After a
  round has closed, the ledger has as many entries as the roster. The next
  bet by a player who already has a ledger entry (even a re-bet of the same
  amount) then resolves the reopened round at once: round 1 is credited a
  second time. The counts match, but the keys need not: when the round
  closed while the ledger still held a departed player's bet, a bet by a
  player with no ledger entry adds one, and the room stays in `betting`.
  `Properties.RestartCreditsAgain` states this for every room, and
  `Scenarios.RoundOneCreditedTwice` is a concrete instance.
  `Properties.RestartNewcomerBetWaits` states the case of a bettor with no
  ledger entry.
- A second bet in the same round overwrites the ledger entry in its
  original position, and it charges the player again (app.js:144-145).
- Room creation overwrites an existing room with the same id (app.js:35).

## Model

| member | source | states |
|---|---|---|
| Ledgers.Put | app.js:144 | Assigning a key makes lookups of that key return the new value and leaves every other lookup as it was. An existing key keeps its position and a new key goes to the end of the order. No entry appears other than the assigned one, and keys stay unique. |
| Ledgers.PutOverwrites | app.js:144 | Re-assigning a key that is present replaces its value at the same index, so the enumeration order does not change. |
| Ledgers.RemoveKeeps | app.js:171 | After `delete`, the key is gone and every other lookup is unchanged. No entry is invented, keys stay unique, and exactly one entry disappears when the key was present. |
| Ledgers.RemoveCutsOut | app.js:171 | `delete` removes exactly the entry at the key's position and keeps the others in their original order. |
| Ledgers.Get | app.js:127 | `o[k]` is defined exactly when the key is present, and then it is the value stored under it. |
| Ledgers.Remove | app.js:171 | `delete` never lengthens the object, and deleting an absent key changes nothing. `RemoveKeeps` and `RemoveCutsOut` state the rest. |
| Ledgers.PutThenRemove | app.js:171 | Deleting a key that was just added restores the object exactly, so delete is the inverse of adding. |
| RoundResolver.ScanBets | app.js:199-209 | The scan's `highestBet` is never below its starting 0, it is 0 while the tie list is empty, and each bet adds at most one id. |
| RoundResolver.TieListEmpty | app.js:199-209 | Since the scan starts at 0, the tie list ends empty exactly when every amount is negative. |
| RoundResolver.Winner | app.js:212 | `winnerIds[0]` is undefined exactly when every amount is negative. Otherwise it is the id of a recorded bet carrying the highest amount. |
| RoundResolver.ScanRoster | app.js:275-283 | The roster scan names a player exactly when the tally it ends with is positive. |
| RoundResolver.ScanBetsFindsTies | app.js:199-209 | The scan's `highestBet` is the larger of 0 and every bet. Its `winnerIds` are exactly the ids whose bet equals that amount, in ledger order. |
| RoundResolver.FirstRecordedWins | app.js:199-212 | With positive bets, a winner exists iff some bet was recorded. The winner is then the first ledger entry carrying the maximum, and every earlier entry is strictly lower. |
| RoundResolver.ScanRosterFindsLeader | app.js:275-283 | The roster scan finds no winner iff nobody has won a round. Otherwise it finds the first player in roster order with the greatest tally, and every earlier player has strictly fewer wins. |
| RoundResolver.TiedAtSnoc | app.js:202-208 | Appending an entry to the ledger extends the reference tie list by that entry's id exactly when its amount is the one tied on. |
| Lifecycle.EndGame | app.js:270-303 | `endGame` throws iff no player has won a round. Otherwise it changes only the phase, to `gameEnd`, and has exactly two effects. First comes `gameEnded` to the room, naming the first top scorer (a seated player) with their name and tally, the round history and the roster. Then comes the deletion timer. |
| Lifecycle.CloseRound | app.js:215-225 | Closing a round raises only the winner's tally, by exactly one. It appends one record (round, winner, name, highest bet) after the unchanged earlier records and sets `roundEnd`. Nothing else changes. |
| Lifecycle.Settle | app.js:224-244 | Once the winner is seated, the rest of `endRound` cannot throw. The room ends in `gameEnd` iff the winner reaches three wins or the last round was played, and in `roundEnd` otherwise. `roundEnded` is announced first. When the game is over there are exactly three effects: `roundEnded`, then `endGame`'s `gameEnded` announcement of the first top scorer over the credited roster and history, then the deletion timer. Otherwise there are exactly two: `roundEnded` and the next-round timer. |
| Lifecycle.EndRound | app.js:194-245 | `endRound` throws iff there is no bet (no winner) or the winning bettor has left. It reports which fault it raised. Otherwise it credits the first top bettor as `CloseRound` describes and moves the phase by the game-over test. Its effects are exactly those `Settle` lists: `roundEnded`, then on game over `gameEnded` and the deletion timer, otherwise the next-round timer. |
| Lifecycle.NextRound | app.js:252-259 | `startNextRound` clears the bets, advances the round by one and reopens betting whatever the phase. Roster, balances, tallies and history carry over, and a valid room stays valid. |
| Coordinator.CreateRoom | app.js:33-44 | The new room is `waiting` at round 0, with 5 rounds, 3 to win, and no players, bets or history. It replaces any room with that id and leaves every other room and session alone. |
| Coordinator.JoinRoom | app.js:54-93 | For an unknown room or a room past `waiting`, it replies with the matching error and changes nothing. Otherwise it seats exactly one new player with 100 money and no wins, at the end of the roster. Every other player and room is left alone, and the socket's session records the room and player. |
| Coordinator.StartGame | app.js:96-117 | It does nothing when the socket has no live room. It errors without changes when fewer than two players are seated. Otherwise it sets `betting` and round 1, whatever the phase was, changes nothing else, and announces the start. |
| Coordinator.Charge | app.js:144-145 | After recording a bet, the bettor has a ledger entry and the room's other fields are unchanged. |
| Coordinator.ChargeRecords | app.js:143-145 | Recording a bet stores the amount under the bettor and lowers their balance by exactly that amount. A first bet goes to the end of the ledger and a repeated one keeps its place. No other bet or player changes. |
| Coordinator.PlaceBet | app.js:120-158 | With no session, no room, no betting phase or no seat, it is a silent no-op. A missing or non-positive amount, or one above the balance, gets the matching error and no change. Otherwise the balance drops by the amount and stays non-negative. The round is resolved exactly when the bet count reaches the player count. Sessions never change. |
| Coordinator.Unseat | app.js:170-171 | Removing a player deletes only that roster entry, one entry fewer when present, keeps the rest, and leaves the bets untouched. |
| Coordinator.Disconnect | app.js:161-190 | A socket with no session changes nothing. The room is deleted when its last player leaves. Otherwise the departure is announced, and the round is resolved iff the room is betting and the bet count equals the remaining player count. The departed player's bet still counts. Only the departing socket's session goes. |
| Coordinator.FireNextRound | app.js:248-267 | On a deleted room it does nothing. Otherwise it clears the bets, advances the round by one, reopens betting whatever the phase, changes nothing else, and announces the round. |
| Coordinator.FireReclaim | app.js:300-302 | The room is deleted, with no effect. Every other room and every session is left alone. On an already deleted room it does nothing. |
| Coordinator.Step | app.js:50-190 | Only a bet or a disconnect can throw. Only a join or a disconnect touches the session table: a join records the joining socket's session or changes nothing, and a disconnect forgets the departing socket. |
| Coordinator.Run | app.js:50-190 | A sequence of actions throws only if it holds a bet or a disconnect. A sequence with no join and no disconnect leaves the session table as it was. |
| Properties.ChargeKeepsValid | app.js:138-145 | A bet that passed the balance check leaves the room valid, so no balance goes negative. |
| Properties.EndRoundKeepsValid | app.js:215-222 | Crediting a round keeps the room valid. |
| Properties.JoinKeepsValid | app.js:70-76 | Seating a newcomer keeps the room valid. |
| Properties.CreateKeepsValid | app.js:33-44 | Creating a room keeps every room valid. |
| Properties.JoinRoomKeepsValid | app.js:54-93 | `joinRoom` keeps every room valid. |
| Properties.StartKeepsValid | app.js:96-117 | `startGame` keeps every room valid. |
| Properties.BetKeepsValid | app.js:120-158 | A `placeBet` that does not throw keeps every room valid. |
| Properties.LeaveKeepsValid | app.js:161-190 | A `disconnect` that does not throw keeps every room valid. |
| Properties.NextRoundKeepsValid | app.js:248-267 | The next-round timer keeps every room valid. |
| Properties.ReclaimKeepsValid | app.js:300-302 | The deletion timer keeps every room valid. |
| Properties.StepKeepsValid | app.js:33-303 | Any action that does not throw keeps every room valid: stored under its own id, unique keys, balances between 0 and 100, and bets between 1 and 100. |
| Properties.RunKeepsValid | app.js:33-303 | Any sequence of actions that does not throw keeps every room valid. |
| Properties.RebetChargesTwice | app.js:144-145 | Betting `a` and then `b` in one round leaves one ledger entry, holding `b`, in the first bet's position, and costs the player `a + b`. |
| Properties.ResolutionMoves | app.js:216-238 | Resolving a betting round appends exactly one record, for the round being bet on, and keeps the earlier records. It leaves the room in `roundEnd` or `gameEnd`. |
| Properties.BetStaysInItsRoom | app.js:120-158 | A bet leaves every room other than the bettor's own exactly as it was, and an ignored bet leaves every room as it was. |
| Properties.BetMovesItsRoom | app.js:143-157 | In the bettor's room, a bet either keeps the phase and history, or closes the betting round with one new record. |
| Properties.BetMoves | app.js:120-158 | No bet creates a room. Every room after a bet moved only as `PhaseMove` and `HistoryMove` allow. |
| Properties.BetKeepsRooms | app.js:120-158 | A bet neither creates nor deletes a room. |
| Properties.LeaveMoves | app.js:161-190 | No disconnect creates a room. A room that survives a disconnect either keeps its phase and history, or closes its betting round with one new record. |
| Properties.RoomMoves | app.js:33-303 | Only room creation makes a room appear, and it is then a fresh room. Every other action moves an existing room's phase only along the handlers' transitions, and its history only by one record at the close of a betting round. |
| Properties.NoSecondResolution | app.js:125-187 | In `roundEnd` or `gameEnd`, neither a bet nor a disconnect can resolve the round again: phase and history stay as they are. |
| Properties.RestartCreditsAgain | app.js:96-158 | `startGame` on a room whose round has closed with as many bets as players succeeds. The next valid bet by a player who already has a ledger entry then resolves the reopened round at once: if it does not throw, exactly one record, for round 1, follows the unchanged earlier history. |
| Properties.RestartNewcomerBetWaits | app.js:96-158 | After the same restart, a valid bet by a seated player with no ledger entry adds an entry, so the ledger outgrows the roster. The room stays in `betting` at round 1 with its history unchanged. |
| Properties.WinnerHasBet | app.js:199-212 | With positive bets and at least one of them, the bet scan yields a winner, and that winner has a bet. |
| Properties.FaultNeedsOrphanBet | app.js:212-216 | From valid rooms and for well-formed payloads, the only exception a handler raises is a winner with no roster entry, and only on a bet or a disconnect. The winner holds a bet. For a bet, the winner is someone else who had already left. For a disconnect, it is the departing player or someone who had left before. |
| Properties.JoinThenLeave | app.js:54-177 | A socket with no session that joins a waiting room that has players, under a player id not yet seated there, and then disconnects restores the server exactly. |
| Scenarios.AliceJoins | app.js:54-93 | The first join into a fresh room seats Alice with 100 money and announces the roster. |
| Scenarios.AliceStarts | app.js:96-117 | With two players seated, `startGame` opens round 1 for betting. |
| Scenarios.AliceBets30 | app.js:120-158 | A first bet of 30 takes 30 from Alice and does not close the round while Bob has not bet. |
| Scenarios.TieGoesToFirstBet | app.js:199-212 | Two bets of 30: the scan ties both, and the round goes to the bet recorded first. |
| Scenarios.FirstRoundCloses | app.js:215-243 | Resolving that tie credits Alice with one win, records round 1 at 30, leaves the bets in place, sets `roundEnd` and arms the next-round timer. |
| Scenarios.BobTiesAndAliceWins | app.js:120-244 | Bob matching Alice's 30 closes the round. Alice is credited, a record for round 1 at 30 is appended, and the next-round timer is armed. |
| Scenarios.AliceStillWinsTheRound | app.js:199-212 | After Alice leaves, her bet of 50 still tops the ledger. |
| Scenarios.LeaverTakesTheRoundDown | app.js:161-216 | Alice bets 50 and Bob 10, then Alice disconnects from a three-player room. The remaining bet count matches the roster, and `endRound` throws on her missing entry. |
| Scenarios.RestartReopensRoundOne | app.js:96-117 | Alice's `startGame` after the tie round reopens betting at round 1 with both bets still in the ledger. |
| Scenarios.SecondBetClosesRoundOne | app.js:120-158 | Alice's re-bet of 30 overwrites her entry in place, costs her 30 more, and meets the all-bets-in test, so it resolves the round. |
| Scenarios.RoundOneCreditedAgain | app.js:194-222 | Resolving the reopened round credits Alice again: two wins, and two records for round 1 at 30. |
| Scenarios.RoundOneCreditedTwice | app.js:96-245 | The whole path from the closed tie round: `startGame` then a re-bet of 30 leaves Alice with 40 money, two wins and two records for round 1. |

## Left out

- The Express application, session middleware, static files, the `/` route
  and `server.listen` (app.js:1-30, 305-311). They are HTTP plumbing, and
  the JSON reply of room creation is not modelled.
- socket.io itself. `io.to(...).emit` and `socket.emit` are recorded as
  `Emit` effects, in the order they happen, addressed to a room or to one
  connection; delivery is not modelled. `socket.join` (app.js:79) is not
  modelled at all: the session table holds only the socket's `roomId` and
  `playerId` fields (app.js:80-81), not its socket.io room memberships. So
  which sockets a `ToRoom` broadcast reaches is not modelled either. For
  example, a socket that joins a second room keeps receiving the first
  room's broadcasts, while its session names only the second.
- The uuid generator (app.js:34, 69). Room and player ids are parameters of
  the actions, so the environment chooses them.
- Timer delays (5000 ms and 60000 ms). A scheduled callback is an effect.
  Firing it is an action the environment may take at any time, for any room,
  so the model allows more behaviours than the real timers do.
- `parseInt` (app.js:131). The amount arrives already parsed as
  `Option<int>`, with `None` standing for NaN.
- `console.log`, and the exact text of the error messages. Errors are
  constructors; the balance in the not-enough-money message is kept.
- Coordinator.JoinRoom: a `joinRoom` event sent with no payload object
  throws a TypeError when its parameter is destructured (app.js:54), which
  the model cannot express. Room ids that are not uuid-shaped are covered
  by the line on identifiers below.
- Coordinator.PlaceBet: a `placeBet` event sent with no payload object
  throws a TypeError when its parameter is destructured (app.js:120),
  before any check. The model takes the parsed amount as its argument, so
  every bet it sees carries a payload; properties about exceptions hold
  for well-formed payloads only.
- What the process does after an uncaught TypeError. `Step` and `Run` stop
  with a `Fault` outcome. Mutations and emits made before the throw are
  discarded, rather than modelling a half-updated room that lives on.
- Coordinator.Disconnect, Coordinator.JoinRoom, Coordinator.StartGame,
  Coordinator.PlaceBet: room and player ids are any strings in the model,
  but are assumed to be uuid-shaped, as the generator makes them. The
  handlers behave differently on ids the generator never produces:
  - A client-supplied room id naming an inherited property of a plain
    object (`constructor`, `__proto__`, `toString`) passes the lookup at
    app.js:56 and gets the already-started reply (app.js:63-64). The model
    keeps the registry as a map without a prototype and replies
    `RoomNotFound`.
  - A socket with no session looks up the room `"undefined"` (app.js:98,
    123). The model treats a missing session as no room.
  - The truthiness test at app.js:167 skips `disconnect` for an empty room
    id or player id. The model treats the empty string like any other id.
  - `endGame` with no winner looks up the player `"null"` (app.js:285). The
    model raises `NoGameWinner` there, a case `endRound` never reaches.
- Lifecycle.EndGame: when it throws, the `gameEnd` phase set at app.js:288
  before the throw is not kept. The case cannot arise from `endRound`, since
  its winner has just won a round.
- `endRound` and `endGame` on a deleted room (app.js:196, 272): they are
  only ever called on a room that is present.

=== FILE: coordinator.dfy ===
/** The room registry and the socket handlers: `/api/create-room`,
    `joinRoom`, `startGame`, `placeBet`, `disconnect`, and the two timer
    callbacks. Each handler is a function from the server state to an
    outcome; the transport, the uuid generator and the clock are outside and
    supply the connection, the fresh ids and the timer firings as
    arguments. */
module Coordinator {
  import opened Ledgers
  import opened Rooms
  import opened Events
  import opened RoundResolver
  import opened Lifecycle

  /** The `roomId` and `playerId` fields `joinRoom` stores on a socket. */
  datatype Session = Session(roomId: RoomId, playerId: PlayerId)

  /** `gameRooms`, and the session fields of every live socket that has
      joined a room. */
  datatype Server = Server(rooms: map<RoomId, Room>, sessions: map<ConnId, Session>)

  /** A handler either returns, leaving a new server state and its effects,
      or throws. */
  datatype Outcome = Ok(server: Server, effects: seq<Effect>) | Fault(fault: Fault)

  /** `socket.emit('error', ...)`. */
  function Reply(conn: ConnId, e: Error): Effect {
    Emit(ToConn(conn), ErrorEvent(e))
  }

  /** Store what a lifecycle helper left behind under the room's id, after
      the effects the handler produced before calling it. */
  function Commit(s: Server, id: RoomId, prior: seq<Effect>, res: Resolution): (o: Outcome)
    ensures o.Ok? <==> res.Done?
    ensures o.Ok? ==> o.server.sessions == s.sessions
  {
    match res
    case Crash(f) => Fault(f)
    case Done(room, effects) => Ok(s.(rooms := s.rooms[id := room]), prior + effects)
  }

  /** The room's bet count has caught up with its roster count: the test
      both `placeBet` and `disconnect` make before calling `endRound`. */
  predicate AllBetsIn(room: Room) {
    |room.bets| == |room.players|
  }

  // ---------------------------------------------------------------------
  // Room creation
  // ---------------------------------------------------------------------

  /** `POST /api/create-room` with the id the generator produced. An id
      already in use is overwritten. */
  function CreateRoom(s: Server, id: RoomId): (r: Server)
    ensures id in r.rooms
    ensures r.rooms[id].id == id
    ensures r.rooms[id].state == Waiting
    ensures r.rooms[id].currentRound == 0
    ensures r.rooms[id].totalRounds == 5 && r.rooms[id].roundsToWin == 3
    ensures r.rooms[id].players == [] && r.rooms[id].bets == [] && r.rooms[id].roundWinners == []
    ensures r.rooms.Keys == s.rooms.Keys + {id}
    ensures forall k :: k in s.rooms && k != id ==> r.rooms[k] == s.rooms[k]
    ensures r.sessions == s.sessions
  {
    s.(rooms := s.rooms[id := NewRoom(id)])
  }

  // ---------------------------------------------------------------------
  // joinRoom
  // ---------------------------------------------------------------------

  /** The roster entry `joinRoom` creates. */
  function Newcomer(id: PlayerId, name: string, conn: ConnId): Player {
    Player(id, name, StartingMoney, 0, conn)
  }

  /** `joinRoom` from socket `conn`, with `playerId` the uuid the generator
      produced. */
  function JoinRoom(s: Server, conn: ConnId, roomId: RoomId, name: string, playerId: PlayerId): (o: Outcome)
    ensures o.Ok?
    ensures roomId !in s.rooms ==> o == Ok(s, [Reply(conn, RoomNotFound)])
    ensures roomId in s.rooms && s.rooms[roomId].state != Waiting ==>
              o == Ok(s, [Reply(conn, GameAlreadyStarted)])
    ensures roomId in s.rooms ==> roomId in o.server.rooms
    ensures roomId in s.rooms && s.rooms[roomId].state == Waiting ==>
              var before := s.rooms[roomId];
              var after := o.server.rooms[roomId];
              && o.server.rooms.Keys == s.rooms.Keys
              && (forall k :: k in s.rooms && k != roomId ==> o.server.rooms[k] == s.rooms[k])
              && after == before.(players := after.players)
              && Get(after.players, playerId) == Some(Newcomer(playerId, name, conn))
              && (forall q :: q != playerId ==> Get(after.players, q) == Get(before.players, q))
              && (!HasKey(before.players, playerId) ==>
                    after.players == before.players + [(playerId, Newcomer(playerId, name, conn))])
              && o.server.sessions == s.sessions[conn := Session(roomId, playerId)]
              && o.effects == [Emit(ToRoom(roomId), RoomUpdate(Values(after.players), Waiting)),
                               Emit(ToConn(conn), JoinedRoom(playerId, roomId))]
  {
    if roomId !in s.rooms then Ok(s, [Reply(conn, RoomNotFound)])
    else
      var room := s.rooms[roomId];
      if room.state != Waiting then Ok(s, [Reply(conn, GameAlreadyStarted)])
      else
        var joined := room.(players := Put(room.players, playerId, Newcomer(playerId, name, conn)));
        Ok(Server(s.rooms[roomId := joined], s.sessions[conn := Session(roomId, playerId)]),
           [Emit(ToRoom(roomId), RoomUpdate(Values(joined.players), joined.state)),
            Emit(ToConn(conn), JoinedRoom(playerId, roomId))])
  }

  // ---------------------------------------------------------------------
  // startGame
  // ---------------------------------------------------------------------

  /** `startGame` from socket `conn`. The phase is not consulted. */
  function StartGame(s: Server, conn: ConnId): (o: Outcome)
    ensures o.Ok?
    ensures conn !in s.sessions || s.sessions[conn].roomId !in s.rooms ==> o == Ok(s, [])
    ensures conn in s.sessions && s.sessions[conn].roomId in s.rooms ==>
              var id := s.sessions[conn].roomId;
              var before := s.rooms[id];
              if |before.players| < 2 then
                o == Ok(s, [Reply(conn, NeedTwoPlayers)])
              else
                && o.server.sessions == s.sessions
                && o.server.rooms.Keys == s.rooms.Keys
                && (forall k :: k in s.rooms && k != id ==> o.server.rooms[k] == s.rooms[k])
                && o.server.rooms[id].state == Betting
                && o.server.rooms[id].currentRound == 1
                && o.server.rooms[id].(state := before.state, currentRound := before.currentRound) == before
                && o.effects == [Emit(ToRoom(id), GameStarted(1, Betting, Values(before.players)))]
  {
    if conn !in s.sessions then Ok(s, [])
    else
      var id := s.sessions[conn].roomId;
      if id !in s.rooms then Ok(s, [])
      else
        var room := s.rooms[id];
        if |room.players| < 2 then Ok(s, [Reply(conn, NeedTwoPlayers)])
        else
          var started := room.(state := Betting, currentRound := 1);
          Ok(s.(rooms := s.rooms[id := started]),
             [Emit(ToRoom(id), GameStarted(started.currentRound, started.state, Values(started.players)))])
  }

  // ---------------------------------------------------------------------
  // placeBet
  // ---------------------------------------------------------------------

  /** What recording a bet does to the room: the bet ledger holds `a` under
      `p` (a first bet goes to the end of the ledger, a repeated one keeps
      its place), `p`'s balance drops by exactly `a`, and nothing else
      changes. */
  ghost predicate Charged(before: Room, after: Room, p: PlayerId, a: int) {
    && HasKey(before.players, p)
    && Get(after.bets, p) == Some(a)
    && (forall q :: q != p ==> Get(after.bets, q) == Get(before.bets, q))
    && Get(after.players, p) == Some(Get(before.players, p).value.(money := Get(before.players, p).value.money - a))
    && (forall q :: q != p ==> Get(after.players, q) == Get(before.players, q))
    && Keys(after.players) == Keys(before.players)
    && (forall e :: e in after.players ==>
          e == (p, Get(before.players, p).value.(money := Get(before.players, p).value.money - a)) || e in before.players)
    && Keys(after.bets) == (if HasKey(before.bets, p) then Keys(before.bets) else Keys(before.bets) + [p])
    && (forall e :: e in after.bets ==> e == (p, a) || e in before.bets)
    && (WellFormed(before.players) ==> WellFormed(after.players))
    && (WellFormed(before.bets) ==> WellFormed(after.bets))
    && after.(players := before.players, bets := before.bets) == before
  }

  /** `room.bets[playerId] = amount; player.money -= amount`. */
  function Charge(room: Room, p: PlayerId, a: int): (r: Room)
    requires HasKey(room.players, p)
    ensures HasKey(r.bets, p)
    ensures r.(players := room.players, bets := room.bets) == room
  {
    var player := Get(room.players, p).value;
    room.(bets := Put(room.bets, p, a), players := Put(room.players, p, player.(money := player.money - a)))
  }

  /** `Charge` does what `Charged` describes. */
  lemma ChargeRecords(room: Room, p: PlayerId, a: int)
    requires HasKey(room.players, p)
    ensures Charged(room, Charge(room, p, a), p, a)
  {
  }

  /** The handler's silent early returns: no session, no room, not in
      the betting phase, or no roster entry for the socket's player. */
  predicate BetIgnored(s: Server, conn: ConnId) {
    || conn !in s.sessions
    || s.sessions[conn].roomId !in s.rooms
    || s.rooms[s.sessions[conn].roomId].state != Betting
    || !HasKey(s.rooms[s.sessions[conn].roomId].players, s.sessions[conn].playerId)
  }

  /** `placeBet` from socket `conn`; `amount` is the result of `parseInt`,
      with `None` for NaN. */
  function PlaceBet(s: Server, conn: ConnId, amount: Option<int>): (o: Outcome)
    ensures o.Ok? ==> o.server.sessions == s.sessions
    ensures BetIgnored(s, conn) ==> o == Ok(s, [])
    ensures !BetIgnored(s, conn) ==>
              var id := s.sessions[conn].roomId;
              var p := s.sessions[conn].playerId;
              var before := s.rooms[id];
              var balance := Get(before.players, p).value.money;
              if amount.None? || amount.value <= 0 then
                o == Ok(s, [Reply(conn, InvalidBetAmount)])
              else if amount.value > balance then
                o == Ok(s, [Reply(conn, NotEnoughMoney(balance))])
              else
                var charged := Charge(before, p, amount.value);
                var placed := [Emit(ToRoom(id), BetPlaced(p, Get(before.players, p).value.name, amount.value))];
                && 0 <= Get(charged.players, p).value.money == balance - amount.value
                && o == if AllBetsIn(charged) then Commit(s, id, placed, EndRound(charged))
                        else Ok(s.(rooms := s.rooms[id := charged]), placed)
  {
    if BetIgnored(s, conn) then Ok(s, [])
    else
      var id := s.sessions[conn].roomId;
      var p := s.sessions[conn].playerId;
      var room := s.rooms[id];
      var player := Get(room.players, p).value;
      if amount.None? || amount.value <= 0 then Ok(s, [Reply(conn, InvalidBetAmount)])
      else if amount.value > player.money then Ok(s, [Reply(conn, NotEnoughMoney(player.money))])
      else
        var charged := Charge(room, p, amount.value);
        ChargeRecords(room, p, amount.value);
        var placed := [Emit(ToRoom(id), BetPlaced(p, player.name, amount.value))];
        if AllBetsIn(charged) then Commit(s, id, placed, EndRound(charged))
        else Ok(s.(rooms := s.rooms[id := charged]), placed)
  }

  // ---------------------------------------------------------------------
  // disconnect
  // ---------------------------------------------------------------------

  /** `delete room.players[playerId]`: the bet ledger is left as it is. */
  function Unseat(room: Room, p: PlayerId): (r: Room)
    ensures !HasKey(r.players, p)
    ensures forall q :: q != p ==> Get(r.players, q) == Get(room.players, q)
    ensures forall e :: e in r.players ==> e in room.players
    ensures WellFormed(room.players) ==> WellFormed(r.players)
    ensures WellFormed(room.players) && HasKey(room.players, p) ==> |r.players| == |room.players| - 1
    ensures r.(players := room.players) == room
  {
    RemoveKeeps(room.players, p);
    room.(players := Remove(room.players, p))
  }

  /** `disconnect` of socket `conn`. The socket is gone afterwards, so its
      session goes too. */
  function Disconnect(s: Server, conn: ConnId): (o: Outcome)
    ensures o.Ok? ==> o.server.sessions == s.sessions - {conn}
    ensures conn !in s.sessions ==> o == Ok(s, [])
    ensures conn in s.sessions && s.sessions[conn].roomId !in s.rooms ==>
              o == Ok(s.(sessions := s.sessions - {conn}), [])
    ensures conn in s.sessions && s.sessions[conn].roomId in s.rooms ==>
              var id := s.sessions[conn].roomId;
              var p := s.sessions[conn].playerId;
              var left := Unseat(s.rooms[id], p);
              var rest := s.(sessions := s.sessions - {conn});
              if left.players == [] then
                o == Ok(rest.(rooms := s.rooms - {id}), [])
              else
                var notice := [Emit(ToRoom(id), PlayerLeft(p, Values(left.players)))];
                o == if left.state == Betting && AllBetsIn(left) then Commit(rest, id, notice, EndRound(left))
                     else Ok(rest.(rooms := s.rooms[id := left]), notice)
  {
    if conn !in s.sessions then Ok(s, [])
    else
      var id := s.sessions[conn].roomId;
      var p := s.sessions[conn].playerId;
      var rest := s.(sessions := s.sessions - {conn});
      if id !in s.rooms then Ok(rest, [])
      else
        var left := Unseat(s.rooms[id], p);
        if |left.players| == 0 then Ok(rest.(rooms := s.rooms - {id}), [])
        else
          var notice := [Emit(ToRoom(id), PlayerLeft(p, Values(left.players)))];
          if left.state == Betting && AllBetsIn(left) then Commit(rest, id, notice, EndRound(left))
          else Ok(rest.(rooms := s.rooms[id := left]), notice)
  }

  // ---------------------------------------------------------------------
  // Timer callbacks
  // ---------------------------------------------------------------------

  /** The 5000 ms callback: `startNextRound(roomId)`. */
  function FireNextRound(s: Server, id: RoomId): (o: Outcome)
    ensures o.Ok?
    ensures id !in s.rooms ==> o == Ok(s, [])
    ensures id in s.rooms ==> id in o.server.rooms
    ensures id in s.rooms ==>
              var before := s.rooms[id];
              var after := o.server.rooms[id];
              && o.server.sessions == s.sessions
              && o.server.rooms.Keys == s.rooms.Keys
              && (forall k :: k in s.rooms && k != id ==> o.server.rooms[k] == s.rooms[k])
              && after.bets == []
              && after.currentRound == before.currentRound + 1
              && after.state == Betting
              && after.(bets := before.bets, currentRound := before.currentRound, state := before.state) == before
              && o.effects == [Emit(ToRoom(id), RoundStarted(after.currentRound, Betting, Values(before.players)))]
  {
    if id !in s.rooms then Ok(s, [])
    else
      var next := NextRound(s.rooms[id]);
      Ok(s.(rooms := s.rooms[id := next]),
         [Emit(ToRoom(id), RoundStarted(next.currentRound, next.state, Values(next.players)))])
  }

  /** The 60000 ms callback: `delete gameRooms[roomId]`. */
  function FireReclaim(s: Server, id: RoomId): (o: Outcome)
    ensures o.Ok? && o.effects == []
    ensures id !in o.server.rooms
    ensures forall k :: k in s.rooms && k != id ==> k in o.server.rooms && o.server.rooms[k] == s.rooms[k]
    ensures o.server.rooms.Keys == s.rooms.Keys - {id}
    ensures o.server.sessions == s.sessions
    ensures id !in s.rooms ==> o.server == s
  {
    Ok(s.(rooms := s.rooms - {id}), [])
  }

  // ---------------------------------------------------------------------
  // Actions
  // ---------------------------------------------------------------------

  /** Everything that can happen to the server: a request, a socket event,
      or a timer firing. The environment may fire either timer at any
      moment, for any id. */
  datatype Action =
    | Create(roomId: RoomId)
    | Join(conn: ConnId, roomId: RoomId, playerName: string, playerId: PlayerId)
    | Start(conn: ConnId)
    | Bet(conn: ConnId, amount: Option<int>)
    | Leave(conn: ConnId)
    | NextRoundFires(roomId: RoomId)
    | ReclaimFires(roomId: RoomId)

  /** One action. Only a bet or a disconnect can throw, and only a join or
      a disconnect touches the session table: a join records the joining
      socket's session (or changes nothing on an error reply), a disconnect
      forgets the departing socket. */
  function Step(s: Server, a: Action): (o: Outcome)
    ensures o.Fault? ==> a.Bet? || a.Leave?
    ensures o.Ok? && !a.Join? && !a.Leave? ==> o.server.sessions == s.sessions
    ensures o.Ok? && a.Join? ==>
              || o.server.sessions == s.sessions
              || o.server.sessions == s.sessions[a.conn := Session(a.roomId, a.playerId)]
    ensures o.Ok? && a.Leave? ==> o.server.sessions == s.sessions - {a.conn}
  {
    match a
    case Create(id) => Ok(CreateRoom(s, id), [])
    case Join(conn, id, name, p) => JoinRoom(s, conn, id, name, p)
    case Start(conn) => StartGame(s, conn)
    case Bet(conn, amount) => PlaceBet(s, conn, amount)
    case Leave(conn) => Disconnect(s, conn)
    case NextRoundFires(id) => FireNextRound(s, id)
    case ReclaimFires(id) => FireReclaim(s, id)
  }

  /** A sequence of actions, one after the other, stopping at the first
      fault. A run throws only if it holds a bet or a disconnect, and a run
      with no join and no disconnect leaves the session table as it was. */
  function Run(s: Server, actions: seq<Action>): (o: Outcome)
    ensures o.Fault? ==> exists i :: 0 <= i < |actions| && (actions[i].Bet? || actions[i].Leave?)
    ensures o.Ok? && (forall i :: 0 <= i < |actions| ==> !actions[i].Join? && !actions[i].Leave?) ==>
              o.server.sessions == s.sessions
    decreases |actions|
  {
    if actions == [] then Ok(s, [])
    else
      assert forall i :: 0 <= i < |actions| - 1 ==> actions[1..][i] == actions[i + 1];
      match Step(s, actions[0])
      case Fault(f) => Fault(f)
      case Ok(s1, e1) =>
        match Run(s1, actions[1..])
        case Fault(f) => Fault(f)
        case Ok(s2, e2) => Ok(s2, e1 + e2)
  }
}

=== FILE: events.dfy ===
/** What a handler produces besides the new state: notifications for the
    transport to deliver, timers for the environment to fire later, and
    the exceptions that abort a handler midway. */
module Events {
  import opened Ledgers
  import opened Rooms

  /** The `error` notifications, one per validation failure. */
  datatype Error =
    | RoomNotFound
    | GameAlreadyStarted
    | NeedTwoPlayers
    | InvalidBetAmount
      /** The message carries the player's balance at the time of the bet. */
    | NotEnoughMoney(balance: int)

  /** Who a notification is addressed to: every socket joined to a room, or
      the one socket the action came from. */
  datatype Audience = ToRoom(roomId: RoomId) | ToConn(conn: ConnId)

  datatype Event =
    | RoomUpdate(players: seq<Player>, state: Phase)
    | JoinedRoom(playerId: PlayerId, roomId: RoomId)
    | ErrorEvent(error: Error)
    | GameStarted(currentRound: nat, state: Phase, players: seq<Player>)
    | BetPlaced(playerId: PlayerId, playerName: string, amount: int)
    | RoundEnded(round: nat, winnerId: PlayerId, winnerName: string,
                 bets: Ledger<PlayerId, int>, players: seq<Player>)
    | RoundStarted(currentRound: nat, state: Phase, players: seq<Player>)
    | GameEnded(winnerId: PlayerId, winnerName: string, roundsWon: nat,
                roundResults: seq<RoundRecord>, players: seq<Player>)
    | PlayerLeft(playerId: PlayerId, players: seq<Player>)

  /** The two `setTimeout` callbacks: the next round after 5000 ms, the
      room's deletion after 60000 ms. */
  datatype Timer = NextRoundTimer(roomId: RoomId) | ReclaimTimer(roomId: RoomId)

  datatype Effect = Emit(to: Audience, event: Event) | Schedule(timer: Timer)

  /** The TypeErrors a handler can raise by dereferencing a missing player. */
  datatype Fault =
      /** `winnerIds[0]` is undefined because no bet was recorded. */
    | NoWinner
      /** The round's winner has a bet but no roster entry. */
    | WinnerLeft(playerId: PlayerId)
      /** Nobody has won a round, so the game winner id stays `null`. */
    | NoGameWinner
}

=== FILE: ledger.dfy ===
/** Insertion-ordered dictionaries.

    The game keeps its roster and its bets in plain JavaScript objects keyed by
    uuid strings. Such keys are never integer-like, so the objects enumerate
    their own keys in the order the keys were first added (section 10.1.11 of
    ECMA-262, OrdinaryOwnPropertyKeys): assigning to a key that is already
    present keeps its position, a new key goes to the end, and `delete`
    takes the key out. A Ledger is that object written as a sequence of
    (key, value) entries.
 */
module Ledgers {

  datatype Option<+T> = None | Some(value: T)

  type Ledger<K, V> = seq<(K, V)>

  /** `Object.keys(o)`. */
  function Keys<K, V>(l: Ledger<K, V>): seq<K> {
    seq(|l|, i requires 0 <= i < |l| => l[i].0)
  }

  /** `Object.values(o)`. */
  function Values<K, V>(l: Ledger<K, V>): seq<V> {
    seq(|l|, i requires 0 <= i < |l| => l[i].1)
  }

  /** No key occurs twice: what every JavaScript object guarantees. */
  predicate WellFormed<K(==), V>(l: Ledger<K, V>) {
    forall i, j :: 0 <= i < j < |l| ==> l[i].0 != l[j].0
  }

  predicate HasKey<K(==), V>(l: Ledger<K, V>, k: K) {
    exists i :: 0 <= i < |l| && l[i].0 == k
  }

  /** Position of the first entry stored under `k`. */
  function Find<K(==), V>(l: Ledger<K, V>, k: K): (r: Option<nat>)
    ensures r.None? <==> !HasKey(l, k)
    ensures r.Some? ==> r.value < |l| && l[r.value].0 == k
    ensures r.Some? ==> forall j :: 0 <= j < r.value ==> l[j].0 != k
  {
    if l == [] then None
    else if l[0].0 == k then Some(0)
    else
      match Find(l[1..], k)
      case None =>
        assert forall i :: 0 < i < |l| ==> l[i] == l[1..][i - 1];
        None
      case Some(i) => Some(i + 1)
  }

  /** `o[k]`: the value stored under `k`, or nothing. */
  function Get<K(==), V>(l: Ledger<K, V>, k: K): (r: Option<V>)
    ensures r.Some? <==> HasKey(l, k)
    ensures r.Some? ==> (k, r.value) in l
    ensures WellFormed(l) ==> forall i :: 0 <= i < |l| && l[i].0 == k ==> r == Some(l[i].1)
  {
    match Find(l, k)
    case None => None
    case Some(i) => Some(l[i].1)
  }

  /** Two ledgers with the same keys at the same positions find every key at
      the same position. */
  lemma {:induction false} FindSameKeys<K(!new), V>(a: Ledger<K, V>, b: Ledger<K, V>, k: K)
    requires |a| == |b|
    requires forall i :: 0 <= i < |a| ==> a[i].0 == b[i].0
    ensures Find(a, k) == Find(b, k)
    decreases |a|
  {
    if a != [] && a[0].0 != k {
      FindSameKeys(a[1..], b[1..], k);
    }
  }

  /** Appending an entry leaves the first occurrence of every key that was
      already there where it was. */
  lemma {:induction false} FindAppend<K(!new), V>(l: Ledger<K, V>, e: (K, V), k: K)
    ensures Find(l + [e], k) == if HasKey(l, k) then Find(l, k) else if e.0 == k then Some(|l|) else None
    decreases |l|
  {
    if l == [] {
      assert [] + [e] == [e];
    } else {
      assert (l + [e])[1..] == l[1..] + [e];
      FindAppend(l[1..], e, k);
    }
  }

  /** Looking past a leading entry stored under another key. */
  lemma GetCons<K(!new), V>(e: (K, V), t: Ledger<K, V>, k: K)
    requires e.0 != k
    ensures Get([e] + t, k) == Get(t, k)
  {
    assert ([e] + t)[1..] == t;
  }

  /** `o[k] = v`: overwrite in place when `k` is present, append otherwise. */
  function Put<K(==,!new), V>(l: Ledger<K, V>, k: K, v: V): (r: Ledger<K, V>)
    ensures Get(r, k) == Some(v)
    ensures forall j :: j != k ==> Get(r, j) == Get(l, j)
    ensures HasKey(l, k) ==> Keys(r) == Keys(l)
    ensures !HasKey(l, k) ==> Keys(r) == Keys(l) + [k]
    ensures forall e :: e in r ==> e == (k, v) || e in l
    ensures WellFormed(l) ==> WellFormed(r)
  {
    if HasKey(l, k) then
      var r := seq(|l|, i requires 0 <= i < |l| => if l[i].0 == k then (k, v) else l[i]);
      assert forall j :: Find(r, j) == Find(l, j) by {
        forall j ensures Find(r, j) == Find(l, j) {
          FindSameKeys(r, l, j);
        }
      }
      assert forall e :: e in r ==> e == (k, v) || e in l by {
        forall e | e in r ensures e == (k, v) || e in l {
          var i :| 0 <= i < |r| && r[i] == e;
        }
      }
      r
    else
      var r := l + [(k, v)];
      assert forall j :: Find(r, j) == if j == k then Some(|l|) else Find(l, j) by {
        forall j ensures Find(r, j) == if j == k then Some(|l|) else Find(l, j) {
          FindAppend(l, (k, v), j);
        }
      }
      r
  }

  /** On a well-formed ledger, assigning to a key already present replaces
      its one entry where it stands. */
  lemma PutOverwrites<K(!new), V>(l: Ledger<K, V>, i: nat, v: V)
    requires WellFormed(l)
    requires i < |l|
    ensures Put(l, l[i].0, v) == l[i := (l[i].0, v)]
  {
    var k := l[i].0;
    assert HasKey(l, k);
    var r := Put(l, k, v);
    assert forall j :: 0 <= j < |l| && j != i ==> l[j].0 != k;
    assert |r| == |l|;
    assert forall j :: 0 <= j < |l| ==> r[j] == l[i := (k, v)][j];
  }

  /** `delete o[k]`: every entry stored under `k` goes, the others keep
      their relative order. */
  function Remove<K(==,!new), V>(l: Ledger<K, V>, k: K): (r: Ledger<K, V>)
    ensures |r| <= |l|
    ensures !HasKey(l, k) ==> r == l
    decreases |l|
  {
    if l == [] then []
    else
      var tail := Remove(l[1..], k);
      assert !HasKey(l, k) ==> !HasKey(l[1..], k) by {
        assert forall i :: 0 < i < |l| ==> l[i] == l[1..][i - 1];
      }
      if l[0].0 == k then tail else [l[0]] + tail
  }

  /** What deleting `k` does to lookups and well-formedness: `k` is gone,
      every other key reads as before, and on a well-formed ledger that held
      `k` exactly one entry goes. */
  lemma {:induction false} RemoveKeeps<K(!new), V>(l: Ledger<K, V>, k: K)
    ensures forall e :: e in Remove(l, k) ==> e in l
    ensures !HasKey(Remove(l, k), k)
    ensures forall j :: j != k ==> Get(Remove(l, k), j) == Get(l, j)
    ensures WellFormed(l) ==> WellFormed(Remove(l, k))
    ensures WellFormed(l) && HasKey(l, k) ==> |Remove(l, k)| == |l| - 1
    decreases |l|
  {
    if l != [] {
      var tail := Remove(l[1..], k);
      RemoveKeeps(l[1..], k);
      assert l == [l[0]] + l[1..];
      if l[0].0 == k {
        assert forall j :: j != k ==> Get(l, j) == Get(l[1..], j) by {
          forall j | j != k ensures Get(l, j) == Get(l[1..], j) {
            GetCons(l[0], l[1..], j);
          }
        }
        if WellFormed(l) {
          TailWellFormed(l);
          HeadKeyUnique(l);
        }
      } else {
        assert Remove(l, k) == [l[0]] + tail;
        ConsKeepsGet(l[0], tail, l[1..], k);
        if WellFormed(l) {
          TailWellFormed(l);
          ConsKeepsWellFormed(l[0], tail, l[1..]);
          if HasKey(l, k) {
            assert HasKey(l[1..], k) by {
              var i :| 0 <= i < |l| && l[i].0 == k;
              assert l[1..][i - 1] == l[i];
            }
          }
        }
      }
    }
  }

  /** A shared leading entry under another key keeps `Get` agreeing. */
  lemma ConsKeepsGet<K(!new), V>(h: (K, V), t: Ledger<K, V>, u: Ledger<K, V>, k: K)
    requires h.0 != k
    requires forall j :: j != k ==> Get(t, j) == Get(u, j)
    ensures forall j :: j != k ==> Get([h] + t, j) == Get([h] + u, j)
  {
    forall j | j != k ensures Get([h] + t, j) == Get([h] + u, j) {
      if j != h.0 {
        GetCons(h, t, j);
        GetCons(h, u, j);
      } else {
        assert Find([h] + t, j) == Some(0) && Find([h] + u, j) == Some(0);
      }
    }
  }

  /** A leading entry in front of a sub-ledger of a well-formed tail. */
  lemma ConsKeepsWellFormed<K(!new), V>(h: (K, V), t: Ledger<K, V>, u: Ledger<K, V>)
    requires forall e :: e in t ==> e in u
    requires WellFormed([h] + u) ==> WellFormed(t)
    ensures WellFormed([h] + u) ==> WellFormed([h] + t)
  {
    if WellFormed([h] + u) {
      var l, r := [h] + u, [h] + t;
      assert forall e :: e in u ==> e.0 != h.0 by {
        forall e | e in u ensures e.0 != h.0 {
          var i :| 0 <= i < |u| && u[i] == e;
          assert l[0] == h && l[i + 1] == e;
          assert l[0].0 != l[i + 1].0;
        }
      }
      assert forall i :: 0 < i < |r| ==> r[i] == t[i - 1];
    }
  }

  /** Deletion distributes over concatenation. */
  lemma {:induction false} RemoveAppend<K(!new), V>(a: Ledger<K, V>, b: Ledger<K, V>, k: K)
    ensures Remove(a + b, k) == Remove(a, k) + Remove(b, k)
    decreases |a|
  {
    if a == [] {
      assert a + b == b;
    } else {
      assert (a + b)[1..] == a[1..] + b;
      RemoveAppend(a[1..], b, k);
    }
  }

  /** Adding a fresh key and deleting it again gives back the same object,
      key order included. */
  lemma PutThenRemove<K(!new), V>(l: Ledger<K, V>, k: K, v: V)
    requires !HasKey(l, k)
    ensures Remove(Put(l, k, v), k) == l
  {
    RemoveAppend(l, [(k, v)], k);
    assert Remove([(k, v)], k) == [];
  }

  /** On a well-formed ledger, deleting a key cuts out exactly its one entry
      and keeps every other entry in its relative order. */
  lemma {:induction false} RemoveCutsOut<K(!new), V>(l: Ledger<K, V>, k: K)
    requires WellFormed(l)
    requires HasKey(l, k)
    ensures Find(l, k).Some?
    ensures Remove(l, k) == l[..Find(l, k).value] + l[Find(l, k).value + 1..]
    decreases |l|
  {
    if l[0].0 == k {
      CutsOutHead(l, k);
    } else {
      TailWellFormed(l);
      KeyPastHead(l, k);
      RemoveCutsOut(l[1..], k);
      CutsOutPastHead(l, k, Find(l[1..], k).value);
    }
  }

  /** The base case of `RemoveCutsOut`: the key is at the front. */
  lemma CutsOutHead<K(!new), V>(l: Ledger<K, V>, k: K)
    requires WellFormed(l) && l != [] && l[0].0 == k
    ensures Find(l, k) == Some(0)
    ensures Remove(l, k) == l[..0] + l[1..]
  {
    HeadKeyUnique(l);
    assert Remove(l, k) == Remove(l[1..], k);
    assert l[..0] + l[1..] == l[1..];
  }

  lemma KeyPastHead<K(!new), V>(l: Ledger<K, V>, k: K)
    requires HasKey(l, k) && l[0].0 != k
    ensures HasKey(l[1..], k)
  {
    var i :| 0 <= i < |l| && l[i].0 == k;
    assert l[1..][i - 1] == l[i];
  }

  /** The inductive step of `RemoveCutsOut`: an entry under another key in
      front shifts the cut by one. */
  lemma CutsOutPastHead<K(!new), V>(l: Ledger<K, V>, k: K, i: nat)
    requires l != [] && l[0].0 != k
    requires Find(l[1..], k) == Some(i)
    requires Remove(l[1..], k) == l[1..][..i] + l[1..][i + 1..]
    ensures Find(l, k) == Some(i + 1)
    ensures Remove(l, k) == l[..i + 1] + l[i + 2..]
  {
    assert Remove(l, k) == [l[0]] + Remove(l[1..], k);
    SpliceAfterHead(l, i);
  }

  lemma TailWellFormed<K(!new), V>(l: Ledger<K, V>)
    requires WellFormed(l) && l != []
    ensures WellFormed(l[1..])
  {
    var tail := l[1..];
    assert forall i :: 0 <= i < |tail| ==> tail[i] == l[i + 1];
  }

  lemma HeadKeyUnique<K(!new), V>(l: Ledger<K, V>)
    requires WellFormed(l) && l != []
    ensures !HasKey(l[1..], l[0].0)
  {
    var tail := l[1..];
    assert forall i :: 0 <= i < |tail| ==> tail[i] == l[i + 1] && l[0].0 != l[i + 1].0;
  }

  lemma SpliceAfterHead<K, V>(l: Ledger<K, V>, i: nat)
    requires i + 1 < |l|
    ensures [l[0]] + (l[1..][..i] + l[1..][i + 1..]) == l[..i + 1] + l[i + 2..]
  {
    assert [l[0]] + l[1..][..i] == l[..i + 1];
    assert l[1..][i + 1..] == l[i + 2..];
  }
}

=== FILE: lifecycle.dfy ===
/** The round and game lifecycle: `endRound`, `startNextRound` and
    `endGame`, each as a pure function of the room it runs on. */
module Lifecycle {
  import opened Ledgers
  import opened Rooms
  import opened Events
  import opened RoundResolver

  /** A lifecycle helper either runs to completion, leaving a new room and
      the effects it produced, or raises a TypeError midway. */
  datatype Resolution = Done(room: Room, effects: seq<Effect>) | Crash(fault: Fault)

  /** The test `endRound` makes once the winner's tally is updated. */
  predicate GameOver(room: Room, winnerRoundsWon: nat) {
    winnerRoundsWon >= room.roundsToWin || room.currentRound >= room.totalRounds
  }

  /** The `gameEnded` notification `endGame` sends for `room`: it names the
      first player with the most round wins, with their name and tally, and
      carries the round history and the roster. */
  ghost predicate AnnouncesGameEnd(room: Room, e: Effect) {
    && e.Emit? && e.to == ToRoom(room.id)
    && e.event.GameEnded?
    && HasKey(room.players, e.event.winnerId)
    && FirstTopScorer(room.players, e.event.winnerId, e.event.roundsWon)
    && e.event.winnerName == Get(room.players, e.event.winnerId).value.name
    && e.event.roundResults == room.roundWinners
    && e.event.players == Values(room.players)
  }

  /** `endGame`: announce the first player with the most round wins, mark
      the game over and schedule the room's deletion. */
  function EndGame(room: Room): (r: Resolution)
    ensures r.Crash? <==> forall e :: e in room.players ==> e.1.roundsWon == 0
    ensures r.Crash? ==> r.fault == NoGameWinner
    ensures r.Done? ==> r.room == room.(state := GameEnd)
    ensures r.Done? ==>
              && |r.effects| == 2
              && AnnouncesGameEnd(room, r.effects[0])
              && r.effects[1] == Schedule(ReclaimTimer(room.id))
  {
    var lead := ScanRoster(room.players);
    ScanRosterFindsLeader(room.players);
    match lead.gameWinnerId
    case None => Crash(NoGameWinner)
    case Some(w) =>
      var winner := Get(room.players, w).value;
      Done(room.(state := GameEnd),
           [Emit(ToRoom(room.id),
                 GameEnded(w, winner.name, lead.maxRoundsWon, room.roundWinners, Values(room.players))),
            Schedule(ReclaimTimer(room.id))])
  }

  /** What closing a round does to the roster and the history: the
      winner's tally goes up by one, one record is appended, and nothing else
      but the phase changes. */
  ghost predicate Credited(before: Room, after: Room, w: PlayerId, p: Player) {
    && Get(after.players, w) == Some(p.(roundsWon := p.roundsWon + 1))
    && (forall q :: q != w ==> Get(after.players, q) == Get(before.players, q))
    && Keys(after.players) == Keys(before.players)
    && (forall e :: e in after.players ==> e == (w, p.(roundsWon := p.roundsWon + 1)) || e in before.players)
    && (WellFormed(before.players) ==> WellFormed(after.players))
    && after.roundWinners
       == before.roundWinners + [RoundRecord(before.currentRound, w, p.name, ScanBets(before.bets).highestBet)]
    && after.(players := before.players, roundWinners := before.roundWinners, state := before.state) == before
  }

  lemma CreditedIgnoresPhase(before: Room, after: Room, w: PlayerId, p: Player, phase: Phase)
    requires Credited(before, after, w, p)
    ensures Credited(before, after.(state := phase), w, p)
  {
  }

  /** The part of `endRound` before its game-end test. */
  function CloseRound(room: Room, w: PlayerId, p: Player): (closed: Room)
    requires Get(room.players, w) == Some(p)
    ensures Credited(room, closed, w, p)
    ensures closed.state == RoundEnd
    ensures (w, p.(roundsWon := p.roundsWon + 1)) in closed.players
  {
    var winner := p.(roundsWon := p.roundsWon + 1);
    room.(
      players := Put(room.players, w, winner),
      roundWinners := room.roundWinners
                      + [RoundRecord(room.currentRound, w, winner.name, ScanBets(room.bets).highestBet)],
      state := RoundEnd)
  }

  /** The effects of a round credited to `w`, whose roster entry was `p`:
      `roundEnded` first; then, when the game is over, `endGame`'s
      announcement and the deletion timer, otherwise only the next-round
      timer. */
  ghost predicate Announced(room: Room, w: PlayerId, p: Player, r: Resolution)
    requires r.Done?
  {
    var over := GameOver(room, p.roundsWon + 1);
    && |r.effects| == (if over then 3 else 2)
    && r.effects[0] == Emit(ToRoom(room.id),
                            RoundEnded(room.currentRound, w, p.name, room.bets, Values(r.room.players)))
    && (over ==> AnnouncesGameEnd(r.room, r.effects[1]))
    && r.effects[|r.effects| - 1]
       == Schedule(if over then ReclaimTimer(room.id) else NextRoundTimer(room.id))
  }

  /** The rest of `endRound` once the winner `w` and their roster entry `p`
      are known: credit, announce, and either end the game or schedule the
      next round. It cannot fail, since the winner now has a round won. */
  function Settle(room: Room, w: PlayerId, p: Player): (r: Resolution)
    requires Get(room.players, w) == Some(p)
    ensures r.Done?
    ensures Credited(room, r.room, w, p)
    ensures r.room.state == (if GameOver(room, p.roundsWon + 1) then GameEnd else RoundEnd)
    ensures Announced(room, w, p, r)
  {
    var closed := CloseRound(room, w, p);
    var ended := Emit(ToRoom(room.id), RoundEnded(room.currentRound, w, p.name, room.bets, Values(closed.players)));
    if GameOver(room, p.roundsWon + 1) then
      var over := EndGame(closed);
      assert over.Done? by {
        assert (w, p.(roundsWon := p.roundsWon + 1)) in closed.players;
      }
      CreditedIgnoresPhase(room, closed, w, p, GameEnd);
      Done(over.room, [ended] + over.effects)
    else
      Done(closed, [ended, Schedule(NextRoundTimer(room.id))])
  }

  /** `endRound`: credit the round to the first highest bettor, record it,
      close the round, and either end the game or schedule the next round.
      It raises a TypeError when the winner has no roster entry. */
  function EndRound(room: Room): (r: Resolution)
    ensures r.Crash? <==> Winner(room.bets).None? || !HasKey(room.players, Winner(room.bets).value)
    ensures r.Crash? ==> r.fault == if Winner(room.bets).None? then NoWinner else WinnerLeft(Winner(room.bets).value)
    ensures r.Done? ==>
              var w := Winner(room.bets).value;
              var p := Get(room.players, w).value;
              && Credited(room, r.room, w, p)
              && r.room.state == (if GameOver(room, p.roundsWon + 1) then GameEnd else RoundEnd)
              && Announced(room, w, p, r)
    ensures r.Done? && (forall e :: e in room.bets ==> e.1 > 0) ==>
              FirstTopBet(room.bets, Winner(room.bets).value, ScanBets(room.bets).highestBet)
  {
    WinnerIsFirstTop(room.bets);
    match Winner(room.bets)
    case None => Crash(NoWinner)
    case Some(w) =>
      match Get(room.players, w)
      case None => Crash(WinnerLeft(w))
      case Some(p) => Settle(room, w, p)
  }

  /** `FirstRecordedWins`, weakened to hold of any ledger, for use inside a
      function body. */
  lemma WinnerIsFirstTop(bets: Ledger<PlayerId, int>)
    ensures (forall e :: e in bets ==> e.1 > 0) ==>
              (Winner(bets).Some? ==> FirstTopBet(bets, Winner(bets).value, ScanBets(bets).highestBet))
  {
    if forall e :: e in bets ==> e.1 > 0 {
      FirstRecordedWins(bets);
    }
  }

  /** `startNextRound` on a room that is still registered: clear the bets,
      advance the counter and reopen betting, whatever the phase. Roster,
      balances, tallies and history carry over untouched. */
  function NextRound(room: Room): (r: Room)
    ensures r.bets == [] && r.state == Betting
    ensures r.currentRound == room.currentRound + 1
    ensures r.(bets := room.bets, currentRound := room.currentRound, state := room.state) == room
    ensures Valid(room) ==> Valid(r)
  {
    room.(bets := [], currentRound := room.currentRound + 1, state := Betting)
  }
}

=== FILE: properties.dfy ===
/** Properties of the server over any action and any sequence of actions. */
module Properties {
  import opened Ledgers
  import opened Rooms
  import opened Events
  import opened RoundResolver
  import opened Lifecycle
  import opened Coordinator

  /** Every registered room is stored under its own id and is valid. */
  ghost predicate ServerValid(s: Server) {
    forall id :: id in s.rooms ==> s.rooms[id].id == id && Valid(s.rooms[id])
  }

  // ---------------------------------------------------------------------
  // The room invariant
  // ---------------------------------------------------------------------

  lemma ChargeKeepsValid(room: Room, p: PlayerId, a: int)
    requires Valid(room)
    requires HasKey(room.players, p)
    requires 0 < a <= Get(room.players, p).value.money
    ensures Valid(Charge(room, p, a))
  {
    var player := Get(room.players, p).value;
    assert (p, player) in room.players;
    ChargeRecords(room, p, a);
  }

  lemma EndRoundKeepsValid(room: Room)
    requires Valid(room)
    requires EndRound(room).Done?
    ensures Valid(EndRound(room).room)
  {
    var w := Winner(room.bets).value;
    var p := Get(room.players, w).value;
    assert (w, p) in room.players;
  }

  lemma JoinKeepsValid(room: Room, p: PlayerId, name: string, conn: ConnId)
    requires Valid(room)
    ensures Valid(room.(players := Put(room.players, p, Newcomer(p, name, conn))))
  {
  }

  /** Storing a valid room under its own id keeps the server valid. */
  lemma StoreKeepsValid(s: Server, id: RoomId, room: Room)
    requires ServerValid(s)
    requires room.id == id && Valid(room)
    ensures ServerValid(s.(rooms := s.rooms[id := room]))
  {
  }

  lemma CommitKeepsValid(s: Server, id: RoomId, prior: seq<Effect>, res: Resolution)
    requires ServerValid(s)
    requires res.Done? ==> res.room.id == id && Valid(res.room)
    requires Commit(s, id, prior, res).Ok?
    ensures ServerValid(Commit(s, id, prior, res).server)
  {
    StoreKeepsValid(s, id, res.room);
  }

  lemma BetKeepsValid(s: Server, conn: ConnId, amount: Option<int>)
    requires ServerValid(s)
    requires PlaceBet(s, conn, amount).Ok?
    ensures ServerValid(PlaceBet(s, conn, amount).server)
  {
    if !BetIgnored(s, conn) {
      var id := s.sessions[conn].roomId;
      var p := s.sessions[conn].playerId;
      var room := s.rooms[id];
      if amount.Some? && 0 < amount.value <= Get(room.players, p).value.money {
        ChargeKeepsValid(room, p, amount.value);
        var charged := Charge(room, p, amount.value);
        var placed := [Emit(ToRoom(id), BetPlaced(p, Get(room.players, p).value.name, amount.value))];
        if AllBetsIn(charged) {
          var res := EndRound(charged);
          if res.Done? {
            EndRoundKeepsValid(charged);
          }
          CommitKeepsValid(s, id, placed, res);
        } else {
          StoreKeepsValid(s, id, charged);
        }
      }
    }
  }

  lemma LeaveKeepsValid(s: Server, conn: ConnId)
    requires ServerValid(s)
    requires Disconnect(s, conn).Ok?
    ensures ServerValid(Disconnect(s, conn).server)
  {
    if conn in s.sessions && s.sessions[conn].roomId in s.rooms {
      var id := s.sessions[conn].roomId;
      var left := Unseat(s.rooms[id], s.sessions[conn].playerId);
      assert Valid(left);
      var rest := s.(sessions := s.sessions - {conn});
      if left.players != [] {
        var notice := [Emit(ToRoom(id), PlayerLeft(s.sessions[conn].playerId, Values(left.players)))];
        if left.state == Betting && AllBetsIn(left) {
          if EndRound(left).Done? {
            EndRoundKeepsValid(left);
          }
          CommitKeepsValid(rest, id, notice, EndRound(left));
        } else {
          StoreKeepsValid(rest, id, left);
        }
      }
    }
  }

  lemma CreateKeepsValid(s: Server, id: RoomId)
    requires ServerValid(s)
    ensures ServerValid(CreateRoom(s, id))
  {
  }

  lemma JoinRoomKeepsValid(s: Server, conn: ConnId, id: RoomId, name: string, p: PlayerId)
    requires ServerValid(s)
    ensures ServerValid(JoinRoom(s, conn, id, name, p).server)
  {
    if id in s.rooms && s.rooms[id].state == Waiting {
      JoinKeepsValid(s.rooms[id], p, name, conn);
    }
  }

  lemma StartKeepsValid(s: Server, conn: ConnId)
    requires ServerValid(s)
    ensures ServerValid(StartGame(s, conn).server)
  {
  }

  lemma NextRoundKeepsValid(s: Server, id: RoomId)
    requires ServerValid(s)
    ensures ServerValid(FireNextRound(s, id).server)
  {
  }

  lemma ReclaimKeepsValid(s: Server, id: RoomId)
    requires ServerValid(s)
    ensures ServerValid(FireReclaim(s, id).server)
  {
  }

  /** Every action that returns leaves every room valid: balances stay
      between 0 and 100, bets stay positive, and no key is repeated. */
  lemma StepKeepsValid(s: Server, a: Action)
    requires ServerValid(s)
    requires Step(s, a).Ok?
    ensures ServerValid(Step(s, a).server)
  {
    match a
    case Create(id) => CreateKeepsValid(s, id);
    case Join(conn, id, name, p) => JoinRoomKeepsValid(s, conn, id, name, p);
    case Start(conn) => StartKeepsValid(s, conn);
    case Bet(conn, amount) => BetKeepsValid(s, conn, amount);
    case Leave(conn) => LeaveKeepsValid(s, conn);
    case NextRoundFires(id) => NextRoundKeepsValid(s, id);
    case ReclaimFires(id) => ReclaimKeepsValid(s, id);
  }

  /** The invariant holds after any sequence of actions that does not
      throw. */
  lemma {:induction false} RunKeepsValid(s: Server, actions: seq<Action>)
    requires ServerValid(s)
    requires Run(s, actions).Ok?
    ensures ServerValid(Run(s, actions).server)
    decreases |actions|
  {
    if actions != [] {
      StepKeepsValid(s, actions[0]);
      RunKeepsValid(Step(s, actions[0]).server, actions[1..]);
    }
  }

  /** A player who bets twice in one round keeps one ledger entry, in its
      first place, holding the second amount, and pays for both bets. */
  lemma RebetChargesTwice(room: Room, p: PlayerId, a: int, b: int)
    requires HasKey(room.players, p)
    ensures HasKey(Charge(room, p, a).players, p)
    ensures var once := Charge(room, p, a);
            var twice := Charge(once, p, b);
            && Get(twice.bets, p) == Some(b)
            && Keys(twice.bets) == Keys(once.bets)
            && Get(twice.players, p).value.money == Get(room.players, p).value.money - a - b
  {
    ChargeRecords(room, p, a);
    var once := Charge(room, p, a);
    ChargeRecords(once, p, b);
  }

  // ---------------------------------------------------------------------
  // Phases and history
  // ---------------------------------------------------------------------

  /** The phase changes one action can make, as the handlers are written:
      `startGame` and the next-round timer reopen betting from any phase,
      and only a bet or a disconnect can close a betting round. */
  ghost predicate PhaseMove(a: Action, from: Phase, to: Phase) {
    || from == to
    || (to == Betting && (a.Start? || a.NextRoundFires?))
    || (from == Betting && (to == RoundEnd || to == GameEnd) && (a.Bet? || a.Leave?))
  }

  /** The history only grows, by one record for the round that was being
      bet on, and only when a betting round closes. */
  ghost predicate HistoryMove(before: Room, after: Room) {
    || after.roundWinners == before.roundWinners
    || (&& before.state == Betting
        && (after.state == RoundEnd || after.state == GameEnd)
        && |after.roundWinners| == |before.roundWinners| + 1
        && after.roundWinners[..|before.roundWinners|] == before.roundWinners
        && after.roundWinners[|before.roundWinners|].round == before.currentRound)
  }

  lemma ResolutionMoves(room: Room)
    requires room.state == Betting
    requires EndRound(room).Done?
    ensures HistoryMove(room, EndRound(room).room)
    ensures EndRound(room).room.state == RoundEnd || EndRound(room).room.state == GameEnd
  {
  }

  /** A bet touches at most the bettor's own room: every other room is
      left as it was. */
  lemma BetStaysInItsRoom(s: Server, conn: ConnId, amount: Option<int>, id: RoomId)
    requires PlaceBet(s, conn, amount).Ok?
    requires id in s.rooms
    requires BetIgnored(s, conn) || s.sessions[conn].roomId != id
    ensures id in PlaceBet(s, conn, amount).server.rooms
    ensures PlaceBet(s, conn, amount).server.rooms[id] == s.rooms[id]
  {
    if !BetIgnored(s, conn) {
      var sid := s.sessions[conn].roomId;
      var p := s.sessions[conn].playerId;
      var room := s.rooms[sid];
      if amount.Some? && 0 < amount.value <= Get(room.players, p).value.money {
        var charged := Charge(room, p, amount.value);
        if AllBetsIn(charged) {
          var placed := [Emit(ToRoom(sid), BetPlaced(p, Get(room.players, p).value.name, amount.value))];
          var res := EndRound(charged);
          assert PlaceBet(s, conn, amount) == Commit(s, sid, placed, res);
          assert res.Done?;
        }
      }
    }
  }

  /** In the bettor's own room, a bet either leaves phase and history alone
      or closes the betting round, adding one record. */
  lemma BetMovesItsRoom(s: Server, conn: ConnId, amount: Option<int>)
    requires PlaceBet(s, conn, amount).Ok?
    requires !BetIgnored(s, conn)
    ensures s.sessions[conn].roomId in PlaceBet(s, conn, amount).server.rooms
    ensures var id := s.sessions[conn].roomId;
            && PhaseMove(Bet(conn, amount), s.rooms[id].state, PlaceBet(s, conn, amount).server.rooms[id].state)
            && HistoryMove(s.rooms[id], PlaceBet(s, conn, amount).server.rooms[id])
  {
    var sid := s.sessions[conn].roomId;
    var p := s.sessions[conn].playerId;
    var room := s.rooms[sid];
    if amount.Some? && 0 < amount.value <= Get(room.players, p).value.money {
      var charged := Charge(room, p, amount.value);
      if AllBetsIn(charged) {
        var placed := [Emit(ToRoom(sid), BetPlaced(p, Get(room.players, p).value.name, amount.value))];
        var res := EndRound(charged);
        assert PlaceBet(s, conn, amount) == Commit(s, sid, placed, res);
        assert res.Done?;
        ResolutionMoves(charged);
      }
    }
  }

  /** A bet moves its room from betting to a closed round or not at all,
      and every other room stays as it was. */
  lemma BetMoves(s: Server, conn: ConnId, amount: Option<int>, id: RoomId)
    requires PlaceBet(s, conn, amount).Ok?
    requires id in PlaceBet(s, conn, amount).server.rooms
    ensures id in s.rooms
    ensures PhaseMove(Bet(conn, amount), s.rooms[id].state, PlaceBet(s, conn, amount).server.rooms[id].state)
    ensures HistoryMove(s.rooms[id], PlaceBet(s, conn, amount).server.rooms[id])
  {
    if !BetIgnored(s, conn) && s.sessions[conn].roomId == id {
      BetMovesItsRoom(s, conn, amount);
    } else {
      assert id in s.rooms by {
        if id !in s.rooms {
          BetKeepsRooms(s, conn, amount);
        }
      }
      BetStaysInItsRoom(s, conn, amount, id);
    }
  }

  lemma BetKeepsRooms(s: Server, conn: ConnId, amount: Option<int>)
    requires PlaceBet(s, conn, amount).Ok?
    ensures PlaceBet(s, conn, amount).server.rooms.Keys == s.rooms.Keys
  {
    if !BetIgnored(s, conn) {
      var sid := s.sessions[conn].roomId;
      var p := s.sessions[conn].playerId;
      var room := s.rooms[sid];
      if amount.Some? && 0 < amount.value <= Get(room.players, p).value.money {
        var charged := Charge(room, p, amount.value);
        if AllBetsIn(charged) {
          var placed := [Emit(ToRoom(sid), BetPlaced(p, Get(room.players, p).value.name, amount.value))];
          var res := EndRound(charged);
          assert PlaceBet(s, conn, amount) == Commit(s, sid, placed, res);
          assert res.Done?;
        }
      }
    }
  }

  /** A disconnect moves its room from betting to a closed round or not at
      all, and every other room stays as it was. */
  lemma LeaveMoves(s: Server, conn: ConnId, id: RoomId)
    requires Disconnect(s, conn).Ok?
    requires id in Disconnect(s, conn).server.rooms
    ensures id in s.rooms
    ensures PhaseMove(Leave(conn), s.rooms[id].state, Disconnect(s, conn).server.rooms[id].state)
    ensures HistoryMove(s.rooms[id], Disconnect(s, conn).server.rooms[id])
  {
    if conn in s.sessions && s.sessions[conn].roomId == id && id in s.rooms {
      var left := Unseat(s.rooms[id], s.sessions[conn].playerId);
      if left.players != [] && left.state == Betting && AllBetsIn(left) {
        ResolutionMoves(left);
      }
    }
  }

  /** How one action can change a room that exists before and after it:
      re-created empty by an id collision, or moved along `PhaseMove` with
      its history moved along `HistoryMove`. A room that appears was
      created by this action. */
  lemma RoomMoves(s: Server, a: Action, id: RoomId)
    requires Step(s, a).Ok?
    requires id in Step(s, a).server.rooms
    ensures id !in s.rooms ==> a == Create(id)
    ensures a == Create(id) ==> Step(s, a).server.rooms[id] == NewRoom(id)
    ensures id in s.rooms && a != Create(id) ==>
              && PhaseMove(a, s.rooms[id].state, Step(s, a).server.rooms[id].state)
              && HistoryMove(s.rooms[id], Step(s, a).server.rooms[id])
  {
    match a
    case Create(_) =>
    case Join(_, _, _, _) =>
    case Start(_) =>
    case Bet(conn, amount) => BetMoves(s, conn, amount, id);
    case Leave(conn) => LeaveMoves(s, conn, id);
    case NextRoundFires(_) =>
    case ReclaimFires(_) =>
  }

  /** While a room is in `roundEnd` or `gameEnd`, neither a bet nor a
      disconnect resolves it again: phase and history stay as they are. */
  lemma NoSecondResolution(s: Server, a: Action, id: RoomId)
    requires a.Bet? || a.Leave?
    requires id in s.rooms && (s.rooms[id].state == RoundEnd || s.rooms[id].state == GameEnd)
    requires Step(s, a).Ok?
    requires id in Step(s, a).server.rooms
    ensures Step(s, a).server.rooms[id].state == s.rooms[id].state
    ensures Step(s, a).server.rooms[id].roundWinners == s.rooms[id].roundWinners
  {
    RoomMoves(s, a, id);
  }

  /** `startGame` consults neither the phase nor the bets, so it reopens a
      closed round at round 1 with its ledger still full. The next bet by
      any bettor then meets the all-bets-in test at once, and the round is
      resolved again: a second record for round 1 follows the history. */
  lemma RestartCreditsAgain(s: Server, conn: ConnId, amount: int)
    requires conn in s.sessions && s.sessions[conn].roomId in s.rooms
    requires var room := s.rooms[s.sessions[conn].roomId];
             var p := s.sessions[conn].playerId;
             && room.state == RoundEnd && |room.players| >= 2 && AllBetsIn(room)
             && HasKey(room.bets, p) && HasKey(room.players, p)
             && 0 < amount <= Get(room.players, p).value.money
    ensures StartGame(s, conn).Ok?
    ensures var id := s.sessions[conn].roomId;
            var before := s.rooms[id].roundWinners;
            var o := PlaceBet(StartGame(s, conn).server, conn, Some(amount));
            o.Ok? ==>
              && id in o.server.rooms
              && |o.server.rooms[id].roundWinners| == |before| + 1
              && o.server.rooms[id].roundWinners[..|before|] == before
              && o.server.rooms[id].roundWinners[|before|].round == 1
  {
    var id := s.sessions[conn].roomId;
    var p := s.sessions[conn].playerId;
    var room := s.rooms[id];
    var s1 := StartGame(s, conn).server;
    var started := room.(state := Betting, currentRound := 1);
    assert s1 == s.(rooms := s.rooms[id := started]);
    assert !BetIgnored(s1, conn);
    var charged := Charge(started, p, amount);
    ChargeRecords(started, p, amount);
    assert |charged.bets| == |Keys(charged.bets)| == |Keys(started.bets)| == |started.bets|;
    assert |charged.players| == |Keys(charged.players)| == |Keys(started.players)| == |started.players|;
    assert AllBetsIn(charged);
    var placed := [Emit(ToRoom(id), BetPlaced(p, Get(started.players, p).value.name, amount))];
    assert PlaceBet(s1, conn, Some(amount)) == Commit(s1, id, placed, EndRound(charged));
  }

  /** The restart's second credit needs a bettor who already has a ledger
      entry. The counts match after a closed round, but the keys need not:
      when the round closed on a departed player's bet, a seated player with
      no entry adds one, and the reopened round stays open. */
  lemma RestartNewcomerBetWaits(s: Server, conn: ConnId, amount: int)
    requires conn in s.sessions && s.sessions[conn].roomId in s.rooms
    requires var room := s.rooms[s.sessions[conn].roomId];
             var p := s.sessions[conn].playerId;
             && room.state == RoundEnd && |room.players| >= 2 && AllBetsIn(room)
             && !HasKey(room.bets, p) && HasKey(room.players, p)
             && 0 < amount <= Get(room.players, p).value.money
    ensures var id := s.sessions[conn].roomId;
            var before := s.rooms[id];
            var o := PlaceBet(StartGame(s, conn).server, conn, Some(amount));
            && o.Ok? && id in o.server.rooms
            && o.server.rooms[id].state == Betting
            && o.server.rooms[id].currentRound == 1
            && o.server.rooms[id].roundWinners == before.roundWinners
            && |o.server.rooms[id].bets| == |before.bets| + 1
            && HasKey(o.server.rooms[id].bets, s.sessions[conn].playerId)
  {
    var id := s.sessions[conn].roomId;
    var p := s.sessions[conn].playerId;
    var room := s.rooms[id];
    var s1 := StartGame(s, conn).server;
    var started := room.(state := Betting, currentRound := 1);
    assert s1 == s.(rooms := s.rooms[id := started]);
    assert !BetIgnored(s1, conn);
    var charged := Charge(started, p, amount);
    ChargeRecords(started, p, amount);
    assert |charged.bets| == |Keys(charged.bets)| == |Keys(started.bets)| + 1 == |started.bets| + 1;
    assert |charged.players| == |Keys(charged.players)| == |Keys(started.players)| == |started.players|;
    assert !AllBetsIn(charged);
    var placed := [Emit(ToRoom(id), BetPlaced(p, Get(started.players, p).value.name, amount))];
    assert PlaceBet(s1, conn, Some(amount)) == Ok(s1.(rooms := s1.rooms[id := charged]), placed);
  }

  // ---------------------------------------------------------------------
  // Faults
  // ---------------------------------------------------------------------

  /** A room whose every bet has a roster entry. */
  ghost predicate BetsSeated(room: Room) {
    forall e :: e in room.bets ==> HasKey(room.players, e.0)
  }

  lemma WinnerHasBet(bets: Ledger<PlayerId, int>)
    requires forall e :: e in bets ==> e.1 > 0
    requires bets != []
    ensures Winner(bets).Some?
    ensures HasKey(bets, Winner(bets).value)
  {
    FirstRecordedWins(bets);
  }

  /** For well-formed payloads, the only exception a handler can raise is
      `endRound` dereferencing a winner without a roster entry, and that winner always holds a bet
      recorded in the same room. When a bet triggers it, the orphaned bet
      was there before; when a disconnect triggers it, the winner is the
      departing player or an earlier orphan. */
  lemma FaultNeedsOrphanBet(s: Server, a: Action)
    requires ServerValid(s)
    requires Step(s, a).Fault?
    ensures Step(s, a).fault.WinnerLeft?
    ensures a.Bet? || a.Leave?
    ensures a.conn in s.sessions && s.sessions[a.conn].roomId in s.rooms
    ensures var w := Step(s, a).fault.playerId;
            var ses := s.sessions[a.conn];
            var room := s.rooms[ses.roomId];
            && HasKey(room.bets, w)
            && (a.Bet? ==> w != ses.playerId && !HasKey(room.players, w) && !BetsSeated(room))
            && (a.Leave? ==> w == ses.playerId || !HasKey(room.players, w))
  {
    match a
    case Bet(conn, amount) =>
      var id := s.sessions[conn].roomId;
      var p := s.sessions[conn].playerId;
      var room := s.rooms[id];
      var charged := Charge(room, p, amount.value);
      ChargeRecords(room, p, amount.value);
      assert Valid(charged) by { ChargeKeepsValid(room, p, amount.value); }
      WinnerHasBet(charged.bets);
      var w := Winner(charged.bets).value;
      assert w != p;
      assert (w, Get(room.bets, w).value) in room.bets;
    case Leave(conn) =>
      var id := s.sessions[conn].roomId;
      var left := Unseat(s.rooms[id], s.sessions[conn].playerId);
      assert left.bets != [];
      WinnerHasBet(left.bets);
  }

  // ---------------------------------------------------------------------
  // Join and leave
  // ---------------------------------------------------------------------

  /** A player who joins a waiting room and disconnects again leaves the
      server exactly as it was, roster order included, provided somebody
      else is still seated. */
  lemma JoinThenLeave(s: Server, conn: ConnId, id: RoomId, name: string, p: PlayerId)
    requires id in s.rooms && s.rooms[id].state == Waiting
    requires s.rooms[id].players != []
    requires !HasKey(s.rooms[id].players, p)
    requires conn !in s.sessions
    ensures Step(s, Join(conn, id, name, p)).Ok?
    ensures Step(Step(s, Join(conn, id, name, p)).server, Leave(conn)).Ok?
    ensures Step(Step(s, Join(conn, id, name, p)).server, Leave(conn)).server == s
  {
    var room := s.rooms[id];
    var seated := room.(players := Put(room.players, p, Newcomer(p, name, conn)));
    var joined := Server(s.rooms[id := seated], s.sessions[conn := Session(id, p)]);
    assert Step(s, Join(conn, id, name, p)) == JoinRoom(s, conn, id, name, p);
    assert JoinRoom(s, conn, id, name, p).server == joined;
    PutThenRemove(room.players, p, Newcomer(p, name, conn));
    LeaveUndoesJoin(s, conn, id, p, seated);
  }

  /** The disconnect half of `JoinThenLeave`, for the room the join left
      behind. */
  lemma LeaveUndoesJoin(s: Server, conn: ConnId, id: RoomId, p: PlayerId, seated: Room)
    requires id in s.rooms && s.rooms[id].state == Waiting
    requires s.rooms[id].players != []
    requires conn !in s.sessions
    requires Remove(seated.players, p) == s.rooms[id].players
    requires seated.(players := s.rooms[id].players) == s.rooms[id]
    ensures Step(Server(s.rooms[id := seated], s.sessions[conn := Session(id, p)]), Leave(conn)).Ok?
    ensures Step(Server(s.rooms[id := seated], s.sessions[conn := Session(id, p)]), Leave(conn)).server == s
  {
    var joined := Server(s.rooms[id := seated], s.sessions[conn := Session(id, p)]);
    var room := s.rooms[id];
    assert Unseat(seated, p) == room;
    assert joined.sessions - {conn} == s.sessions;
    assert joined.rooms[id := room] == s.rooms;
    assert Step(joined, Leave(conn)) == Disconnect(joined, conn);
  }
}

=== FILE: resolver.dfy ===
/** The two scans the lifecycle helpers run over a room's objects: the bet
    scan that picks a round's winner, and the roster scan that picks the
    game's winner. Each is written as the loop the handler runs, one entry at
    a time in ledger order, and is related to a reference description of
    the winner it is meant to find. */
module RoundResolver {
  import opened Ledgers
  import opened Rooms

  // ---------------------------------------------------------------------
  // Round winner
  // ---------------------------------------------------------------------

  /** The bet scan's two variables, `highestBet` and `winnerIds`. */
  datatype Leaders = Leaders(highestBet: int, winnerIds: seq<PlayerId>)

  /** One iteration of the scan over `Object.entries(room.bets)`: a larger
      bet restarts the tie list, an equal one joins it. */
  function ScanStep(acc: Leaders, e: (PlayerId, int)): Leaders {
    if e.1 > acc.highestBet then Leaders(e.1, [e.0])
    else if e.1 == acc.highestBet then Leaders(acc.highestBet, acc.winnerIds + [e.0])
    else acc
  }

  /** The whole scan, from `highestBet = 0` and no ids. The highest amount
      never drops below its start, and each bet adds at most one id. */
  function ScanBets(bets: Ledger<PlayerId, int>): (r: Leaders)
    ensures 0 <= r.highestBet
    ensures r.winnerIds == [] ==> r.highestBet == 0
    ensures |r.winnerIds| <= |bets|
    decreases |bets|
  {
    if bets == [] then Leaders(0, [])
    else ScanStep(ScanBets(bets[..|bets| - 1]), bets[|bets| - 1])
  }

  /** Since the scan starts at 0, its tie list stays empty exactly when every
      amount is negative. */
  lemma {:induction false} TieListEmpty(bets: Ledger<PlayerId, int>)
    ensures ScanBets(bets).winnerIds == [] <==> forall i :: 0 <= i < |bets| ==> bets[i].1 < 0
    decreases |bets|
  {
    if bets != [] {
      var init := bets[..|bets| - 1];
      assert forall i :: 0 <= i < |init| ==> init[i] == bets[i];
      TieListEmpty(init);
    }
  }

  /** `winnerIds[0]`, undefined when the tie list is empty. When defined, it
      is the id of a recorded bet carrying the highest amount. */
  function Winner(bets: Ledger<PlayerId, int>): (r: Option<PlayerId>)
    ensures r.None? <==> forall i :: 0 <= i < |bets| ==> bets[i].1 < 0
    ensures r.Some? ==> (r.value, ScanBets(bets).highestBet) in bets
  {
    var scan := ScanBets(bets);
    TieListEmpty(bets);
    if scan.winnerIds == [] then None
    else
      ScanBetsFindsTies(bets);
      TiedAtHead(bets, scan.highestBet);
      Some(scan.winnerIds[0])
  }

  /** Reference: `m` is the larger of 0 and every recorded amount. */
  ghost predicate IsTop(bets: Ledger<PlayerId, int>, m: int) {
    && 0 <= m
    && (forall e :: e in bets ==> e.1 <= m)
    && (m == 0 || exists e :: e in bets && e.1 == m)
  }

  /** Reference: the ids whose amount is `m`, in ledger order. */
  function TiedAt(bets: Ledger<PlayerId, int>, m: int): seq<PlayerId>
    decreases |bets|
  {
    if bets == [] then []
    else (if bets[0].1 == m then [bets[0].0] else []) + TiedAt(bets[1..], m)
  }

  /** Reference: `w` is the id of the first entry in ledger order whose
      amount is `m`, and no entry exceeds `m`. */
  ghost predicate FirstTopBet(bets: Ledger<PlayerId, int>, w: PlayerId, m: int) {
    && (forall e :: e in bets ==> e.1 <= m)
    && exists j :: 0 <= j < |bets| && bets[j] == (w, m) && forall i :: 0 <= i < j ==> bets[i].1 < m
  }

  lemma {:induction false} TiedAtSnoc(bets: Ledger<PlayerId, int>, e: (PlayerId, int), m: int)
    ensures TiedAt(bets + [e], m) == TiedAt(bets, m) + (if e.1 == m then [e.0] else [])
    decreases |bets|
  {
    if bets == [] {
      assert [] + [e] == [e];
      assert [e][1..] == [];
    } else {
      assert (bets + [e])[1..] == bets[1..] + [e];
      TiedAtSnoc(bets[1..], e, m);
    }
  }

  lemma {:induction false} TiedAtAbsent(bets: Ledger<PlayerId, int>, m: int)
    requires forall e :: e in bets ==> e.1 != m
    ensures TiedAt(bets, m) == []
    decreases |bets|
  {
    if bets != [] {
      assert bets[0] in bets;
      TiedAtAbsent(bets[1..], m);
    }
  }

  /** The head of a non-empty tie list is the first entry carrying `m`. */
  lemma {:induction false} TiedAtHead(bets: Ledger<PlayerId, int>, m: int)
    requires TiedAt(bets, m) != []
    ensures exists j :: 0 <= j < |bets| && bets[j] == (TiedAt(bets, m)[0], m)
                        && forall i :: 0 <= i < j ==> bets[i].1 != m
    decreases |bets|
  {
    if bets[0].1 == m {
      assert bets[0] == (TiedAt(bets, m)[0], m);
    } else {
      TiedAtHead(bets[1..], m);
      var j :| 0 <= j < |bets[1..]| && bets[1..][j] == (TiedAt(bets[1..], m)[0], m)
               && forall i :: 0 <= i < j ==> bets[1..][i].1 != m;
      assert bets[j + 1] == (TiedAt(bets, m)[0], m);
      assert forall i :: 0 < i < j + 1 ==> bets[i] == bets[1..][i - 1];
    }
  }

  lemma {:induction false} TiedAtPresent(bets: Ledger<PlayerId, int>, m: int, e: (PlayerId, int))
    requires e in bets && e.1 == m
    ensures TiedAt(bets, m) != []
    decreases |bets|
  {
    if bets[0] != e {
      TiedAtPresent(bets[1..], m, e);
    }
  }

  /** The bet scan computes the reference: the highest amount (or 0) and
      every id that bet it, in ledger order. */
  lemma {:induction false} ScanBetsFindsTies(bets: Ledger<PlayerId, int>)
    ensures IsTop(bets, ScanBets(bets).highestBet)
    ensures ScanBets(bets).winnerIds == TiedAt(bets, ScanBets(bets).highestBet)
    decreases |bets|
  {
    if bets != [] {
      var init, e := bets[..|bets| - 1], bets[|bets| - 1];
      assert bets == init + [e];
      ScanBetsFindsTies(init);
      var acc := ScanBets(init);
      var r := ScanBets(bets);
      assert r == ScanStep(acc, e);
      TiedAtSnoc(init, e, r.highestBet);
      if e.1 > acc.highestBet {
        TiedAtAbsent(init, e.1);
      }
    }
  }

  /** Tie-break: on a ledger of positive bets, the round winner is defined
      exactly when some bet was recorded, and it is the id of the first
      entry (in ledger order) carrying the highest amount. */
  lemma FirstRecordedWins(bets: Ledger<PlayerId, int>)
    requires forall e :: e in bets ==> e.1 > 0
    ensures Winner(bets).Some? <==> bets != []
    ensures Winner(bets).Some? ==> FirstTopBet(bets, Winner(bets).value, ScanBets(bets).highestBet)
  {
    var scan := ScanBets(bets);
    ScanBetsFindsTies(bets);
    if bets != [] {
      assert bets[0] in bets;
      var e :| e in bets && e.1 == scan.highestBet;
      TiedAtPresent(bets, scan.highestBet, e);
      TiedAtHead(bets, scan.highestBet);
      var j :| 0 <= j < |bets| && bets[j] == (scan.winnerIds[0], scan.highestBet)
               && forall i :: 0 <= i < j ==> bets[i].1 != scan.highestBet;
      assert forall i :: 0 <= i < j ==> bets[i] in bets;
    }
  }

  // ---------------------------------------------------------------------
  // Game winner
  // ---------------------------------------------------------------------

  /** The roster scan's two variables, `maxRoundsWon` and `gameWinnerId`
      (`null` is `None`). */
  datatype Leader = Leader(maxRoundsWon: nat, gameWinnerId: Option<PlayerId>)

  /** One iteration over `Object.entries(room.players)`: only a strictly
      larger tally takes the lead. */
  function RosterStep(acc: Leader, e: (PlayerId, Player)): Leader {
    if e.1.roundsWon > acc.maxRoundsWon then Leader(e.1.roundsWon, Some(e.0)) else acc
  }

  /** The whole scan, from `maxRoundsWon = 0` and `gameWinnerId = null`.
      It names a player exactly when the tally it ends with is positive. */
  function ScanRoster(players: Ledger<PlayerId, Player>): (r: Leader)
    ensures r.gameWinnerId.None? <==> r.maxRoundsWon == 0
    decreases |players|
  {
    if players == [] then Leader(0, None)
    else RosterStep(ScanRoster(players[..|players| - 1]), players[|players| - 1])
  }

  /** Reference: `w` is the first player in roster order whose tally is `m`,
      and nobody has more. */
  ghost predicate FirstTopScorer(players: Ledger<PlayerId, Player>, w: PlayerId, m: nat) {
    && (forall e :: e in players ==> e.1.roundsWon <= m)
    && exists j :: 0 <= j < |players| && players[j].0 == w && players[j].1.roundsWon == m
                   && forall i :: 0 <= i < j ==> players[i].1.roundsWon < m
  }

  /** The roster scan finds the first player with the strictly greatest
      tally; it finds nobody exactly when no player has won a round. */
  lemma {:induction false} ScanRosterFindsLeader(players: Ledger<PlayerId, Player>)
    ensures forall e :: e in players ==> e.1.roundsWon <= ScanRoster(players).maxRoundsWon
    ensures ScanRoster(players).gameWinnerId.None? <==> forall e :: e in players ==> e.1.roundsWon == 0
    ensures ScanRoster(players).gameWinnerId.None? ==> ScanRoster(players).maxRoundsWon == 0
    ensures ScanRoster(players).gameWinnerId.Some? ==>
              FirstTopScorer(players, ScanRoster(players).gameWinnerId.value, ScanRoster(players).maxRoundsWon)
    ensures ScanRoster(players).gameWinnerId.Some? ==> HasKey(players, ScanRoster(players).gameWinnerId.value)
    decreases |players|
  {
    if players != [] {
      var init, e := players[..|players| - 1], players[|players| - 1];
      assert players == init + [e];
      ScanRosterFindsLeader(init);
      var acc := ScanRoster(init);
      var r := ScanRoster(players);
      if e.1.roundsWon > acc.maxRoundsWon {
        assert players[|players| - 1].0 == e.0;
        assert forall i :: 0 <= i < |players| - 1 ==> players[i] in init;
      } else if acc.gameWinnerId.Some? {
        var j :| 0 <= j < |init| && init[j].0 == acc.gameWinnerId.value && init[j].1.roundsWon == acc.maxRoundsWon
                 && forall i :: 0 <= i < j ==> init[i].1.roundsWon < acc.maxRoundsWon;
        assert players[j] == init[j];
      }
    }
  }
}

=== FILE: room.dfy ===
/** The per-room game state: one record per match, created by the
    room-creation endpoint and mutated only by the socket handlers and the
    round/game lifecycle helpers. */
module Rooms {
  import opened Ledgers

  /** A room id. The generator makes it from the first six characters of a
      uuid; the model accepts any string. */
  type RoomId = string
  /** A player id. The generator makes it a full uuid; the model accepts any
      string. */
  type PlayerId = string
  /** The transport's identifier of one client connection. */
  type ConnId = string

  const StartingMoney: int := 100
  const TotalRounds: nat := 5
  const RoundsToWin: nat := 3

  /** The four values the room's `state` string takes. */
  datatype Phase = Waiting | Betting | RoundEnd | GameEnd

  datatype Player = Player(
    id: PlayerId,
    name: string,
    money: int,
    roundsWon: nat,
    socketId: ConnId)

  /** One entry of `roundWinners`. */
  datatype RoundRecord = RoundRecord(
    round: nat,
    winnerId: PlayerId,
    winnerName: string,
    betAmount: int)

  datatype Room = Room(
    id: RoomId,
    players: Ledger<PlayerId, Player>,
    currentRound: nat,
    totalRounds: nat,
    roundsToWin: nat,
    state: Phase,
    bets: Ledger<PlayerId, int>,
    roundWinners: seq<RoundRecord>)

  /** The record the room-creation endpoint stores under a new id. */
  function NewRoom(id: RoomId): Room {
    Room(id, [], 0, TotalRounds, RoundsToWin, Waiting, [], [])
  }

  /** A roster entry is stored under its own id and its balance lies
      between nothing and the starting stake. */
  predicate Seated(e: (PlayerId, Player)) {
    e.1.id == e.0 && 0 <= e.1.money <= StartingMoney
  }

  /** A recorded bet is positive and no more than any balance can be. */
  predicate Staked(e: (PlayerId, int)) {
    0 < e.1 <= StartingMoney
  }

  /** What every room satisfies between two handler runs. Note that bet
      keys are NOT required to be player keys: a disconnect removes the
      player but keeps their bet. */
  predicate Valid(room: Room) {
    && WellFormed(room.players)
    && WellFormed(room.bets)
    && (forall e :: e in room.players ==> Seated(e))
    && (forall e :: e in room.bets ==> Staked(e))
    && room.totalRounds == TotalRounds
    && room.roundsToWin == RoundsToWin
  }
}

=== FILE: scenarios.dfy ===
/** Concrete games, followed action by action. */
module Scenarios {
  import opened Ledgers
  import opened Rooms
  import opened Events
  import opened RoundResolver
  import opened Lifecycle
  import opened Coordinator

  const Empty := Server(map[], map[])

  function Seat(id: PlayerId, name: string, money: int, won: nat, conn: ConnId): (PlayerId, Player) {
    (id, Player(id, name, money, won, conn))
  }

  function Table(players: Ledger<PlayerId, Player>, round: nat, phase: Phase,
                 bets: Ledger<PlayerId, int>, history: seq<RoundRecord>): Room {
    Room("r1", players, round, TotalRounds, RoundsToWin, phase, bets, history)
  }

  /** Storing a room under the one id a single-room map already has. */
  lemma Reassign<K, V>(k: K, v: V, w: V)
    ensures map[k := v][k := w] == map[k := w]
  {
  }

  const TwoSessions := map["c1" := Session("r1", "a"), "c2" := Session("r1", "b")]

  // ---------------------------------------------------------------------
  // Alice and Bob tie in the first round
  // ---------------------------------------------------------------------

  lemma AliceJoins()
    ensures JoinRoom(CreateRoom(Empty, "r1"), "c1", "r1", "Alice", "a")
            == Ok(Server(map["r1" := Table([Seat("a", "Alice", 100, 0, "c1")], 0, Waiting, [], [])],
                         map["c1" := Session("r1", "a")]),
                  [Emit(ToRoom("r1"), RoomUpdate([Player("a", "Alice", 100, 0, "c1")], Waiting)),
                   Emit(ToConn("c1"), JoinedRoom("a", "r1"))])
  {
    var seated := Put([], "a", Player("a", "Alice", 100, 0, "c1"));
    assert seated == [Seat("a", "Alice", 100, 0, "c1")];
    assert Values(seated) == [Player("a", "Alice", 100, 0, "c1")];
    assert CreateRoom(Empty, "r1").rooms["r1" := Table(seated, 0, Waiting, [], [])]
           == map["r1" := Table(seated, 0, Waiting, [], [])];
  }

  lemma BobJoins()
    ensures JoinRoom(Server(map["r1" := Table([Seat("a", "Alice", 100, 0, "c1")], 0, Waiting, [], [])],
                            map["c1" := Session("r1", "a")]),
                     "c2", "r1", "Bob", "b").server
            == Server(map["r1" := Table([Seat("a", "Alice", 100, 0, "c1"), Seat("b", "Bob", 100, 0, "c2")],
                                        0, Waiting, [], [])],
                      TwoSessions)
  {
    var l := [Seat("a", "Alice", 100, 0, "c1")];
    assert !HasKey(l, "b") by { assert l[0].0 == "a"; }
    var seated := Put(l, "b", Player("b", "Bob", 100, 0, "c2"));
    assert seated == [Seat("a", "Alice", 100, 0, "c1"), Seat("b", "Bob", 100, 0, "c2")];
    Reassign("r1", Table(l, 0, Waiting, [], []), Table(seated, 0, Waiting, [], []));
    assert map["c1" := Session("r1", "a")]["c2" := Session("r1", "b")] == TwoSessions;
  }

  lemma AliceStarts()
    ensures StartGame(Server(map["r1" := Table([Seat("a", "Alice", 100, 0, "c1"), Seat("b", "Bob", 100, 0, "c2")],
                                               0, Waiting, [], [])],
                             TwoSessions), "c1").server
            == Server(map["r1" := Table([Seat("a", "Alice", 100, 0, "c1"), Seat("b", "Bob", 100, 0, "c2")],
                                        1, Betting, [], [])],
                      TwoSessions)
  {
  }

  lemma AliceCharged()
    ensures HasKey([Seat("a", "Alice", 100, 0, "c1"), Seat("b", "Bob", 100, 0, "c2")], "a")
    ensures Charge(Table([Seat("a", "Alice", 100, 0, "c1"), Seat("b", "Bob", 100, 0, "c2")], 1, Betting, [], []),
                   "a", 30)
            == Table([Seat("a", "Alice", 70, 0, "c1"), Seat("b", "Bob", 100, 0, "c2")], 1, Betting, [("a", 30)], [])
  {
    var players := [Seat("a", "Alice", 100, 0, "c1"), Seat("b", "Bob", 100, 0, "c2")];
    assert WellFormed(players) by { assert players[0].0 != players[1].0; }
    assert players[0].0 == "a";
    PutOverwrites(players, 0, Player("a", "Alice", 70, 0, "c1"));
  }

  lemma AliceBets30()
    ensures PlaceBet(Server(map["r1" := Table([Seat("a", "Alice", 100, 0, "c1"), Seat("b", "Bob", 100, 0, "c2")],
                                              1, Betting, [], [])],
                            TwoSessions), "c1", Some(30))
            == Ok(Server(map["r1" := Table([Seat("a", "Alice", 70, 0, "c1"), Seat("b", "Bob", 100, 0, "c2")],
                                           1, Betting, [("a", 30)], [])],
                         TwoSessions),
                  [Emit(ToRoom("r1"), BetPlaced("a", "Alice", 30))])
  {
    var players := [Seat("a", "Alice", 100, 0, "c1"), Seat("b", "Bob", 100, 0, "c2")];
    var room := Table(players, 1, Betting, [], []);
    var s := Server(map["r1" := room], TwoSessions);
    AliceCharged();
    assert Get(players, "a") == Some(players[0].1);
    assert s.sessions["c1"] == Session("r1", "a");
    assert !BetIgnored(s, "c1");
    var charged := Table([Seat("a", "Alice", 70, 0, "c1"), Seat("b", "Bob", 100, 0, "c2")], 1, Betting, [("a", 30)], []);
    assert Charge(room, "a", 30) == charged && !AllBetsIn(charged);
    var placed := [Emit(ToRoom("r1"), BetPlaced("a", "Alice", 30))];
    assert PlaceBet(s, "c1", Some(30)) == Ok(s.(rooms := s.rooms["r1" := charged]), placed);
    Reassign("r1", room, charged);
  }

  lemma BobCharged()
    ensures HasKey([Seat("a", "Alice", 70, 0, "c1"), Seat("b", "Bob", 100, 0, "c2")], "b")
    ensures Charge(Table([Seat("a", "Alice", 70, 0, "c1"), Seat("b", "Bob", 100, 0, "c2")], 1, Betting, [("a", 30)], []),
                   "b", 30)
            == Table([Seat("a", "Alice", 70, 0, "c1"), Seat("b", "Bob", 70, 0, "c2")],
                     1, Betting, [("a", 30), ("b", 30)], [])
  {
    var players := [Seat("a", "Alice", 70, 0, "c1"), Seat("b", "Bob", 100, 0, "c2")];
    assert WellFormed(players) by { assert players[0].0 != players[1].0; }
    assert players[1].0 == "b";
    PutOverwrites(players, 1, Player("b", "Bob", 70, 0, "c2"));
    var bets := [("a", 30)];
    assert !HasKey(bets, "b") by { assert bets[0].0 == "a"; }
  }

  /** The tie between two bets of 30 goes to Alice, whose bet came first. */
  lemma TieGoesToFirstBet()
    ensures
      var bets: Ledger<PlayerId, int> := [("a", 30), ("b", 30)];
      && ScanBets(bets) == Leaders(30, ["a", "b"])
      && Winner(bets) == Some("a")
  {
    var bets: Ledger<PlayerId, int> := [("a", 30), ("b", 30)];
    assert bets[..1] == [("a", 30)];
    assert bets[..1][..0] == [];
  }

  lemma FirstRoundCloses()
    ensures
      EndRound(Table([Seat("a", "Alice", 70, 0, "c1"), Seat("b", "Bob", 70, 0, "c2")],
                     1, Betting, [("a", 30), ("b", 30)], []))
      == Done(Table([Seat("a", "Alice", 70, 1, "c1"), Seat("b", "Bob", 70, 0, "c2")],
                    1, RoundEnd, [("a", 30), ("b", 30)], [RoundRecord(1, "a", "Alice", 30)]),
              [Emit(ToRoom("r1"), RoundEnded(1, "a", "Alice", [("a", 30), ("b", 30)],
                                             [Player("a", "Alice", 70, 1, "c1"), Player("b", "Bob", 70, 0, "c2")])),
               Schedule(NextRoundTimer("r1"))])
  {
    TieGoesToFirstBet();
    var players := [Seat("a", "Alice", 70, 0, "c1"), Seat("b", "Bob", 70, 0, "c2")];
    assert WellFormed(players) by { assert players[0].0 != players[1].0; }
    assert players[0].0 == "a";
    PutOverwrites(players, 0, Player("a", "Alice", 70, 1, "c1"));
    var credited := Put(players, "a", Player("a", "Alice", 70, 1, "c1"));
    assert Values(credited) == [Player("a", "Alice", 70, 1, "c1"), Player("b", "Bob", 70, 0, "c2")];
  }

  const BeforeBobBets := Server(map["r1" := Table([Seat("a", "Alice", 70, 0, "c1"), Seat("b", "Bob", 100, 0, "c2")],
                                                  1, Betting, [("a", 30)], [])],
                                TwoSessions)

  lemma BobsBetClosesTheRound()
    ensures PlaceBet(BeforeBobBets, "c2", Some(30))
            == Commit(BeforeBobBets, "r1", [Emit(ToRoom("r1"), BetPlaced("b", "Bob", 30))],
                      EndRound(Table([Seat("a", "Alice", 70, 0, "c1"), Seat("b", "Bob", 70, 0, "c2")],
                                     1, Betting, [("a", 30), ("b", 30)], [])))
  {
    var s := BeforeBobBets;
    var players := [Seat("a", "Alice", 70, 0, "c1"), Seat("b", "Bob", 100, 0, "c2")];
    BobCharged();
    assert Get(players, "b") == Some(players[1].1);
    assert s.sessions["c2"] == Session("r1", "b");
    assert !BetIgnored(s, "c2");
  }

  /** Bob matches Alice's 30: Alice takes the round because her bet came
      first, both are left with 70, and the next round is scheduled. */
  lemma BobTiesAndAliceWins()
    ensures PlaceBet(BeforeBobBets, "c2", Some(30))
            == Ok(Server(map["r1" := Table([Seat("a", "Alice", 70, 1, "c1"), Seat("b", "Bob", 70, 0, "c2")],
                                           1, RoundEnd, [("a", 30), ("b", 30)], [RoundRecord(1, "a", "Alice", 30)])],
                         TwoSessions),
                  [Emit(ToRoom("r1"), BetPlaced("b", "Bob", 30)),
                   Emit(ToRoom("r1"), RoundEnded(1, "a", "Alice", [("a", 30), ("b", 30)],
                                                 [Player("a", "Alice", 70, 1, "c1"), Player("b", "Bob", 70, 0, "c2")])),
                   Schedule(NextRoundTimer("r1"))])
  {
    BobsBetClosesTheRound();
    FirstRoundCloses();
    FirstRoundCommits();
  }

  lemma FirstRoundCommits()
    ensures Commit(BeforeBobBets, "r1", [Emit(ToRoom("r1"), BetPlaced("b", "Bob", 30))],
                   Done(Table([Seat("a", "Alice", 70, 1, "c1"), Seat("b", "Bob", 70, 0, "c2")],
                              1, RoundEnd, [("a", 30), ("b", 30)], [RoundRecord(1, "a", "Alice", 30)]),
                        [Emit(ToRoom("r1"), RoundEnded(1, "a", "Alice", [("a", 30), ("b", 30)],
                                                       [Player("a", "Alice", 70, 1, "c1"), Player("b", "Bob", 70, 0, "c2")])),
                         Schedule(NextRoundTimer("r1"))]))
            == Ok(Server(map["r1" := Table([Seat("a", "Alice", 70, 1, "c1"), Seat("b", "Bob", 70, 0, "c2")],
                                           1, RoundEnd, [("a", 30), ("b", 30)], [RoundRecord(1, "a", "Alice", 30)])],
                         TwoSessions),
                  [Emit(ToRoom("r1"), BetPlaced("b", "Bob", 30)),
                   Emit(ToRoom("r1"), RoundEnded(1, "a", "Alice", [("a", 30), ("b", 30)],
                                                 [Player("a", "Alice", 70, 1, "c1"), Player("b", "Bob", 70, 0, "c2")])),
                   Schedule(NextRoundTimer("r1"))])
  {
    var closed := Table([Seat("a", "Alice", 70, 1, "c1"), Seat("b", "Bob", 70, 0, "c2")],
                        1, RoundEnd, [("a", 30), ("b", 30)], [RoundRecord(1, "a", "Alice", 30)]);
    Reassign("r1", BeforeBobBets.rooms["r1"], closed);
  }

  // ---------------------------------------------------------------------
  // A restart credits the closed round again
  // ---------------------------------------------------------------------

  /** The table right after Alice took the first round on the tie. */
  const AfterFirstRound :=
    Server(map["r1" := Table([Seat("a", "Alice", 70, 1, "c1"), Seat("b", "Bob", 70, 0, "c2")],
                             1, RoundEnd, [("a", 30), ("b", 30)], [RoundRecord(1, "a", "Alice", 30)])],
           TwoSessions)

  /** The same table once `startGame` has reopened it: round 1 again, with
      the ledger still full. */
  const Reopened :=
    Server(map["r1" := Table([Seat("a", "Alice", 70, 1, "c1"), Seat("b", "Bob", 70, 0, "c2")],
                             1, Betting, [("a", 30), ("b", 30)], [RoundRecord(1, "a", "Alice", 30)])],
           TwoSessions)

  /** Alice's second bet of 30, recorded over her first. */
  const Rebet := Table([Seat("a", "Alice", 40, 1, "c1"), Seat("b", "Bob", 70, 0, "c2")],
                       1, Betting, [("a", 30), ("b", 30)], [RoundRecord(1, "a", "Alice", 30)])

  lemma RestartReopensRoundOne()
    ensures StartGame(AfterFirstRound, "c1").Ok?
    ensures StartGame(AfterFirstRound, "c1").server == Reopened
  {
    Reassign("r1", AfterFirstRound.rooms["r1"], Reopened.rooms["r1"]);
  }

  lemma SecondBetClosesRoundOne()
    ensures PlaceBet(Reopened, "c1", Some(30))
            == Commit(Reopened, "r1", [Emit(ToRoom("r1"), BetPlaced("a", "Alice", 30))], EndRound(Rebet))
  {
    var players := [Seat("a", "Alice", 70, 1, "c1"), Seat("b", "Bob", 70, 0, "c2")];
    var bets: Ledger<PlayerId, int> := [("a", 30), ("b", 30)];
    assert WellFormed(players) by { assert players[0].0 != players[1].0; }
    assert WellFormed(bets) by { assert bets[0].0 != bets[1].0; }
    assert players[0].0 == "a" && bets[0].0 == "a";
    PutOverwrites(players, 0, Player("a", "Alice", 40, 1, "c1"));
    PutOverwrites(bets, 0, 30);
    assert bets[0 := ("a", 30)] == bets;
    assert Get(players, "a") == Some(players[0].1);
    assert Reopened.sessions["c1"] == Session("r1", "a");
    assert !BetIgnored(Reopened, "c1");
    assert Charge(Reopened.rooms["r1"], "a", 30) == Rebet && AllBetsIn(Rebet);
  }

  lemma RoundOneCreditedAgain()
    ensures EndRound(Rebet).Done?
    ensures EndRound(Rebet).room.roundWinners == [RoundRecord(1, "a", "Alice", 30), RoundRecord(1, "a", "Alice", 30)]
    ensures Get(EndRound(Rebet).room.players, "a") == Some(Player("a", "Alice", 40, 2, "c1"))
  {
    TieGoesToFirstBet();
    assert Get(Rebet.players, "a") == Some(Rebet.players[0].1);
  }

  /** Alice sends `startGame` before the next-round timer fires, then bets
      30 again. The ledger was never cleared, so her bet closes round 1 a
      second time: she is credited with a second win and pays 30 more. */
  lemma RoundOneCreditedTwice()
    ensures StartGame(AfterFirstRound, "c1").Ok?
    ensures var o := PlaceBet(StartGame(AfterFirstRound, "c1").server, "c1", Some(30));
            && o.Ok? && "r1" in o.server.rooms
            && o.server.rooms["r1"].roundWinners == [RoundRecord(1, "a", "Alice", 30), RoundRecord(1, "a", "Alice", 30)]
            && Get(o.server.rooms["r1"].players, "a") == Some(Player("a", "Alice", 40, 2, "c1"))
  {
    RestartReopensRoundOne();
    SecondBetClosesRoundOne();
    RoundOneCreditedAgain();
  }

  // ---------------------------------------------------------------------
  // A leaver's bet outlives them
  // ---------------------------------------------------------------------

  const ThreeSessions := map["c1" := Session("r1", "a"), "c2" := Session("r1", "b"), "c3" := Session("r1", "c")]

  /** Alice has bet 50 and Bob 10 when Alice disconnects: her roster entry
      goes but her bet stays, so the two remaining players now match the two
      bets and `endRound` runs with Alice as the winner. */
  const AliceAboutToLeave :=
    Server(map["r1" := Table([Seat("a", "Alice", 50, 0, "c1"), Seat("b", "Bob", 90, 0, "c2"),
                              Seat("c", "Carol", 100, 0, "c3")],
                             1, Betting, [("a", 50), ("b", 10)], [])],
           ThreeSessions)

  lemma AliceLeavesAfterBetting()
    ensures Remove([Seat("a", "Alice", 50, 0, "c1"), Seat("b", "Bob", 90, 0, "c2"), Seat("c", "Carol", 100, 0, "c3")], "a")
            == [Seat("b", "Bob", 90, 0, "c2"), Seat("c", "Carol", 100, 0, "c3")]
  {
    var l := [Seat("a", "Alice", 50, 0, "c1"), Seat("b", "Bob", 90, 0, "c2"), Seat("c", "Carol", 100, 0, "c3")];
    assert l[1..] == [Seat("b", "Bob", 90, 0, "c2"), Seat("c", "Carol", 100, 0, "c3")];
    assert l[1..][1..] == [Seat("c", "Carol", 100, 0, "c3")];
    assert l[1..][1..][1..] == [];
  }

  lemma AliceStillWinsTheRound()
    ensures Winner([("a", 50), ("b", 10)]) == Some("a")
  {
    var bets: Ledger<PlayerId, int> := [("a", 50), ("b", 10)];
    assert bets[..1] == [("a", 50)];
    assert bets[..1][..0] == [];
    assert ScanBets(bets[..1]) == Leaders(50, ["a"]);
    assert ScanBets(bets) == Leaders(50, ["a"]);
  }

  /** The disconnect raises a TypeError: the winner of the round has no
      roster entry left. */
  lemma LeaverTakesTheRoundDown()
    ensures Disconnect(AliceAboutToLeave, "c1") == Fault(WinnerLeft("a"))
  {
    var left := [Seat("b", "Bob", 90, 0, "c2"), Seat("c", "Carol", 100, 0, "c3")];
    AliceLeavesAfterBetting();
    AliceStillWinsTheRound();
    assert !HasKey(left, "a") by { assert left[0].0 == "b" && left[1].0 == "c"; }
    assert AliceAboutToLeave.sessions["c1"] == Session("r1", "a");
    var room := Table(left, 1, Betting, [("a", 50), ("b", 10)], []);
    assert Unseat(AliceAboutToLeave.rooms["r1"], "a") == room;
    assert AllBetsIn(room);
    assert EndRound(room) == Crash(WinnerLeft("a"));
    assert "c1" in AliceAboutToLeave.sessions && "r1" in AliceAboutToLeave.rooms;
    assert room.players != [] && room.state == Betting;
    var rest := AliceAboutToLeave.(sessions := AliceAboutToLeave.sessions - {"c1"});
    var notice := [Emit(ToRoom("r1"), PlayerLeft("a", Values(left)))];
    assert Disconnect(AliceAboutToLeave, "c1") == Commit(rest, "r1", notice, EndRound(room));
    assert Commit(rest, "r1", notice, Crash(WinnerLeft("a"))) == Fault(WinnerLeft("a"));
  }
}
